=== FILE: README.md ===
# AppFlags Java SDK core, modelled in Dafny

The AppFlags server-side SDK answers feature-flag questions in-process. An
`AppFlagsClient` fetches a configuration document from the AppFlags edge and
keeps it current in two ways:
- a poll task that the scheduler runs after the polling period;
- a realtime server-sent-events listener that reports newly published
  configurations.

Every flag lookup serializes the user and hands it to a WebAssembly bucketing
module through that module's linear memory. The module's result is read back
and turned into typed flags.

This project models that core as pure functions over immutable state:

- `GuestMemory`: the little-endian `ByteBuffer` view of the guest's linear memory, a sequence of bytes each held as its unsigned value 0-255. It covers Java's 32-bit pointer arithmetic (which wraps) and the `IndexOutOfBoundsException` faults.
- `BucketingManager`: the `Uint8Array` marshalling (a 12-byte header plus a data buffer) and the host's bookkeeping of pinned pointers. Every guest call is recorded in a trace.
- `Timestamps`: the protobuf `Timestamp` ordering that `Timestamps.compare` implements, including its range check.
- `ConfigurationManager`: the accept-if-newer store, the clamped polling period, the fetch URL, loading, and the constructor.
- `ConfigurationUpdateListener`: the realtime listener's resume cursor and its reconnect state machine.
- `ProtobufConverter`, `Models`, `Protos`: the conversion between SDK models and protobuf messages.
- `AppFlagsClient`: the flag map, typed lookup with defaults, variations, the configuration-update handler, and client sessions.

Foreign code is passed in as function-typed parameters:
- the guest's exported functions (`__new`, `__pin`, `__unpin`, `setConfiguration`, `bucket`);
- the configuration fetch;
- the discovery request;
- the event-message decoder;
- the protobuf codecs.

Java exceptions become `Failure` values. Where an exception is raised after
state has already changed, the changed state is returned alongside it.

Behaviour of the source worth noting:

- **Poll runs once.** The poll task is scheduled once (`scheduler.schedule`, ConfigurationManager.java:133), not at a fixed rate. `ConfigurationManager.Poll` is therefore one reload, not a loop.
- **No allocator null check.** `writeUint8Array` does not check the allocator's result. A pointer the guest returns is used as is, and only the `ByteBuffer` bounds checks can fail.
- **Invalid timestamps fail the load.** `loadConfiguration` logs the loaded `published` through `Timestamps.toString`, which raises for an out-of-range timestamp (ConfigurationManager.java:119). A load of such a configuration therefore fails (`LoadConfiguration`).
- **Discovery failure ends construction.** A discovery failure while starting the realtime listener ends construction, because the listener raises an unchecked exception. This is recorded under Findings. The rest of the model uses the corrected constructor.

## Model

| member | source | states |
|---|---|---|
| GuestMemory.Add | src/main/java/io/appflags/sdk/managers/bucketing/BucketingManager.java:113-114 | Java `int` addition used for pointer offsets: the mathematical sum when it fits, otherwise the sum wrapped by 2^32; always congruent to the sum modulo 2^32 |
| GuestMemory.AddIsTheOnlyWrappedSum | src/main/java/io/appflags/sdk/managers/bucketing/BucketingManager.java:113-114 | the wrapped sum is the only Java `int` congruent to the mathematical sum modulo 2^32 |
| GuestMemory.DecodeEncode | src/main/java/io/appflags/sdk/managers/bucketing/BucketingManager.java:138-140 | writing an `int` as four little-endian bytes and reading them back yields the same `int` |
| GuestMemory.EncodeDecode | src/main/java/io/appflags/sdk/managers/bucketing/BucketingManager.java:113-114 | every four bytes are the encoding of exactly the `int` they decode to |
| GuestMemory.GetInt | src/main/java/io/appflags/sdk/managers/bucketing/BucketingManager.java:113-114 | `getInt` succeeds exactly when four bytes fit at the index, faults with that index otherwise, and returns the value whose encoding is those bytes |
| GuestMemory.PutInt | src/main/java/io/appflags/sdk/managers/bucketing/BucketingManager.java:138-140 | `putInt` stores the value's encoding at the index and leaves every other byte unchanged, or faults when the four bytes do not fit |
| GuestMemory.GetAfterPutInt | src/main/java/io/appflags/sdk/managers/bucketing/BucketingManager.java:138-140 | reading back a stored `int` gives the stored value |
| BucketingManager.PutBytes | src/main/java/io/appflags/sdk/managers/bucketing/BucketingManager.java:143-145 | the data copy stores each byte at its offset until the first index out of range, which faults; bytes before the fault stay written and nothing else changes |
| BucketingManager.PutBytesLoop | src/main/java/io/appflags/sdk/managers/bucketing/BucketingManager.java:143-145 | the byte-at-a-time loop computes the same memory and fault as the whole-copy definition |
| BucketingManager.PutHeader | src/main/java/io/appflags/sdk/managers/bucketing/BucketingManager.java:137-140 | the 12-byte header holds the buffer pointer at offsets 0 and 4 and the length at offset 8, and only the header bytes change |
| BucketingManager.StoreUint8Array | src/main/java/io/appflags/sdk/managers/bucketing/BucketingManager.java:134-145 | header then payload: faults exactly when the header or payload does not fit; on success the header and payload hold their values and bytes outside both are unchanged |
| BucketingManager.ReadUint8Array | src/main/java/io/appflags/sdk/managers/bucketing/BucketingManager.java:108-123 | reads the buffer pointer and length from offsets 4 and 8; a negative length, an out-of-range header or an out-of-range byte faults; otherwise the result is the `length` bytes at the buffer |
| BucketingManager.ReadUint8ArrayLoop | src/main/java/io/appflags/sdk/managers/bucketing/BucketingManager.java:117-122 | the copy loop returns the same bytes or fault as the whole-read definition |
| BucketingManager.StoreThenRead | src/main/java/io/appflags/sdk/managers/bucketing/BucketingManager.java:108-148 | round trip: data stored as a `Uint8Array` whose header and buffer do not overlap reads back as the same bytes |
| BucketingManager.UnpinAll | src/main/java/io/appflags/sdk/managers/bucketing/BucketingManager.java:158-170 | `unpinAll` calls the guest's `__unpin` on every tracked pointer in list order (the memory is that left-to-right fold, and the history records the same unpins), then the tracked list is empty |
| BucketingManager.AllocateWrapper | src/main/java/io/appflags/sdk/managers/bucketing/BucketingManager.java:126-132 | a buffer of class 1 and `length` bytes, then a 12-byte wrapper of class 8, are each allocated and pinned, so both join the tracked list in that order; the two pointers are the ones the guest's `__new` returned |
| BucketingManager.WriteUint8Array | src/main/java/io/appflags/sdk/managers/bucketing/BucketingManager.java:125-148 | after the two pins, the write succeeds exactly when both regions fit; it returns the wrapper, whose data reads back (when the regions are disjoint); memory outside both regions is unchanged |
| BucketingManager.PinPointer | src/main/java/io/appflags/sdk/managers/bucketing/BucketingManager.java:150-156 | the guest's `__pin` is called on the pointer (the memory is its result) and the pointer is appended to the tracked list, so a tracked list that matched the guest's pins still matches |
| BucketingManager.SetConfiguration | src/main/java/io/appflags/sdk/managers/bucketing/BucketingManager.java:69-79 | releases the previous pins and writes the configuration; the tracked pointers are the write's two allocations; succeeds exactly when the write does, and then hands the guest the written wrapper, which at that moment reads back as the configuration (when header and data do not overlap); a failed write raises its fault with no guest call; exactly two pointers are then tracked |
| BucketingManager.Bucket | src/main/java/io/appflags/sdk/managers/bucketing/BucketingManager.java:81-98 | releases the previous pins and writes the user; the tracked pointers are the write's two allocations; a failed write raises its fault with no guest call; otherwise the guest gets the written wrapper, which reads back as the user (when header and data do not overlap), and the result is the `Uint8Array` at the pointer the guest returned, read straight after the call |
| BucketingManager.OutstandingAfterUnpins | src/main/java/io/appflags/sdk/managers/bucketing/BucketingManager.java:158-163 | the unpins of `unpinAll` remove exactly the tracked pointers from what the guest holds pinned |
| BucketingManager.PerformKeepsInvariants | src/main/java/io/appflags/sdk/managers/bucketing/BucketingManager.java:69-98 | one load or bucket call keeps the host's tracked pointers equal to what the guest holds pinned, keeps every result read right after its guest call, leaves two pointers pinned, and only extends the history |
| BucketingManager.RunKeepsInvariants | src/main/java/io/appflags/sdk/managers/bucketing/BucketingManager.java:151-163 | over any sequence of calls the tracked list matches the guest's pins and pins never accumulate beyond the last call's two |
| Timestamps.Compare | src/main/java/io/appflags/sdk/managers/configuration/ConfigurationManager.java:161 | `Timestamps.compare` rejects a timestamp outside years 1-9999 or with nanos outside [0, 10^9); otherwise its sign is that of the lexicographic (seconds, nanos) order |
| ConfigurationManager.PollingPeriod | src/main/java/io/appflags/sdk/managers/configuration/ConfigurationManager.java:66-70 | the polling period is ten minutes when unset and otherwise the option raised to at least one minute |
| ConfigurationManager.PollingPeriodClamps | src/main/java/io/appflags/sdk/managers/configuration/ConfigurationManager.java:66-70 | every option at or below one minute gives the same period; clamping is idempotent and monotone |
| ConfigurationManager.ConfigUrl | src/main/java/io/appflags/sdk/managers/configuration/ConfigurationManager.java:103-106 | the fetch URL is the edge URL plus `/configuration/v1/config`, with `?getUpdateAt=` and the value appended exactly when a value is given |
| ConfigurationManager.ConfigUrlIsInjective | src/main/java/io/appflags/sdk/managers/configuration/ConfigurationManager.java:103-106 | different `getUpdateAt` values give different URLs |
| ConfigurationManager.LoadConfiguration | src/main/java/io/appflags/sdk/managers/configuration/ConfigurationManager.java:93-121 | a failed fetch raises with its load type; a fetched configuration whose `published` is out of range raises; otherwise it is returned |
| ConfigurationManager.GetConfiguration | src/main/java/io/appflags/sdk/managers/configuration/ConfigurationManager.java:82-87 | raises "not initialized" exactly when no configuration is held, otherwise returns it |
| ConfigurationManager.UpdateIfNewer | src/main/java/io/appflags/sdk/managers/configuration/ConfigurationManager.java:151-168 | raises, changing nothing, when there is no current configuration or either side lacks `published`; otherwise replaces the configuration exactly when the new `published` is strictly later |
| ConfigurationManager.RepeatedOfferIsNoOp | src/main/java/io/appflags/sdk/managers/configuration/ConfigurationManager.java:161-167 | offering the same configuration again is discarded and changes nothing |
| ConfigurationManager.PublishedNeverDecreases | src/main/java/io/appflags/sdk/managers/configuration/ConfigurationManager.java:151-168 | whatever sequence of configurations is offered, the held `published` never moves backwards |
| ConfigurationManager.OffersConvergeToLatest | src/main/java/io/appflags/sdk/managers/configuration/ConfigurationManager.java:161-167 | after any sequence of offers the held `published` is the latest of the initial and offered ones, and the callback ran exactly once for each offer strictly later than every `published` before it |
| ConfigurationManager.OfferOrderDoesNotMatter | src/main/java/io/appflags/sdk/managers/configuration/ConfigurationManager.java:161-167 | two offers in either order leave the same `published` |
| ConfigurationManager.Poll | src/main/java/io/appflags/sdk/managers/configuration/ConfigurationManager.java:123-134 | the poll task fetches `<edge>/configuration/v1/config` with PERIODIC_RELOAD; a failed fetch raises with that load type; it succeeds exactly when the fetched and the held `published` are both present and in range, and then takes the fetched configuration exactly when its `published` is strictly later, otherwise changing nothing |
| ConfigurationManager.RealtimeReload | src/main/java/io/appflags/sdk/managers/configuration/ConfigurationManager.java:136-146 | a notification fetches the config URL carrying the rendered notified `published` with REALTIME_RELOAD; failure, success and acceptance are decided from the fetched configuration as for the poll task |
| ConfigurationManager.LoadedOffersAreComparable | src/main/java/io/appflags/sdk/managers/configuration/ConfigurationManager.java:119 | a loaded configuration is refused only for a missing `published`, never for an out-of-range one |
| ConfigurationManager.InitializeAsWritten | src/main/java/io/appflags/sdk/managers/configuration/ConfigurationManager.java:54-80 | the constructor as written: a failed initial load raises; after a successful load it succeeds exactly when no environment is named or discovery succeeds, and otherwise raises the listener's discovery failure; a built manager holds the loaded configuration, the clamped period, and a listener exactly when an environment is named |
| ConfigurationManager.DiscoveryFailureAbortsConstruction | src/main/java/io/appflags/sdk/managers/configuration/ConfigurationManager.java:73-79 | as written, a configuration naming an environment whose discovery request fails makes construction raise |
| ConfigurationManager.Initialize | src/main/java/io/appflags/sdk/managers/configuration/ConfigurationManager.java:54-80 | construction fails only when the initial load does; it holds the loaded configuration and the clamped period, and has a listener exactly when an environment is named and discovery succeeds |
| ConfigurationManager.InitializeMatchesAsWrittenOtherwise | src/main/java/io/appflags/sdk/managers/configuration/ConfigurationManager.java:54-80 | wherever the constructor as written succeeds, the corrected one returns the same manager |
| ConfigurationManager.Close | src/main/java/io/appflags/sdk/managers/configuration/ConfigurationManager.java:188-194 | closing cancels the listener's source if a listener was started and keeps the configuration |
| ConfigurationUpdateListener.DiscoveryUrl | src/main/java/io/appflags/sdk/managers/configuration/ConfigurationUpdateListener.java:80-81 | the discovery URL reads as the edge URL, `/realtimeToken/`, the environment id and `/eventSource`, in that order |
| ConfigurationUpdateListener.DiscoveryUrlIsInjective | src/main/java/io/appflags/sdk/managers/configuration/ConfigurationUpdateListener.java:80-81 | under one edge URL, different environments ask different discovery URLs |
| ConfigurationUpdateListener.StreamUrl | src/main/java/io/appflags/sdk/managers/configuration/ConfigurationUpdateListener.java:68-71 | the stream URL starts with the discovered URL and carries `&lastEvent=` and the cursor after it exactly when a cursor is recorded |
| ConfigurationUpdateListener.StreamUrlIsInjective | src/main/java/io/appflags/sdk/managers/configuration/ConfigurationUpdateListener.java:68-71 | different cursors give different stream URLs |
| ConfigurationUpdateListener.CreateNewEventSource | src/main/java/io/appflags/sdk/managers/configuration/ConfigurationUpdateListener.java:55-89 | cancels the current source first; asks `<edge>/realtimeToken/<env>/eventSource` for the stream URL; on failure raises with the cancelled source still in the field; otherwise opens a new source on that URL plus the cursor |
| ConfigurationUpdateListener.Create | src/main/java/io/appflags/sdk/managers/configuration/ConfigurationUpdateListener.java:47-53 | construction raises exactly when discovery fails; otherwise one source without a cursor is open |
| ConfigurationUpdateListener.OnEvent | src/main/java/io/appflags/sdk/managers/configuration/ConfigurationUpdateListener.java:105-117 | every event overwrites the cursor with its id, even a null one; only a "message" event is decoded and its `published` handed on; an undecodable message raises; nothing else changes |
| ConfigurationUpdateListener.OnClosed | src/main/java/io/appflags/sdk/managers/configuration/ConfigurationUpdateListener.java:98-102 | a closed source reconnects: the current source is cancelled, discovery is asked again, and a new source resumes from the cursor; a failed discovery raises and keeps the cancelled source; the cursor and the delivered values are kept |
| ConfigurationUpdateListener.OnFailure | src/main/java/io/appflags/sdk/managers/configuration/ConfigurationUpdateListener.java:119-123 | a failed source reconnects exactly as a closed one does |
| ConfigurationUpdateListener.OpenedIsInvisible | src/main/java/io/appflags/sdk/managers/configuration/ConfigurationUpdateListener.java:125-128 | `onOpen` only logs: an open callback anywhere in a run leaves the run's outcome as if it had not come |
| ConfigurationUpdateListener.Close | src/main/java/io/appflags/sdk/managers/configuration/ConfigurationUpdateListener.java:91-95 | closing cancels the current source if there is one and changes nothing else |
| ConfigurationUpdateListener.AtMostOneLiveMeansOne | src/main/java/io/appflags/sdk/managers/configuration/ConfigurationUpdateListener.java:56-57 | under the listener invariant, the only source not cancelled is the one in the field |
| ConfigurationUpdateListener.TransitionsKeepOneLive | src/main/java/io/appflags/sdk/managers/configuration/ConfigurationUpdateListener.java:97-128 | each callback and `close` keep at most one source live |
| ConfigurationUpdateListener.CreateHasOneLive | src/main/java/io/appflags/sdk/managers/configuration/ConfigurationUpdateListener.java:47-53 | a new listener starts with at most one live source |
| ConfigurationUpdateListener.ReconnectResumesFromLastEvent | src/main/java/io/appflags/sdk/managers/configuration/ConfigurationUpdateListener.java:99-123 | after an event with id `e`, a reconnection on close or failure asks for the stream from `e` |
| ConfigurationUpdateListener.ReplayKeepsOneLiveAndCursor | src/main/java/io/appflags/sdk/managers/configuration/ConfigurationUpdateListener.java:97-128 | over any run of callbacks at most one source stays live, and the cursor is the id of the last event received, or the starting cursor when none arrived |
| ProtobufConverter.ToProtoUser | src/main/java/io/appflags/sdk/utils/ProtobufConverter.java:14-18 | the `User` message carries the user's key and nothing else, so the user is recovered from it |
| ProtobufConverter.FromFlagValueType | src/main/java/io/appflags/sdk/utils/ProtobufConverter.java:46-58 | BOOLEAN, DOUBLE and STRING map to BOOLEAN, NUMBER and STRING, each inverting the reverse mapping; UNRECOGNIZED raises |
| ProtobufConverter.FlagTypeMappingIsBijective | src/main/java/io/appflags/sdk/utils/ProtobufConverter.java:46-58 | the value-type mapping is a bijection onto the SDK flag types |
| ProtobufConverter.FromComputedFlag | src/main/java/io/appflags/sdk/utils/ProtobufConverter.java:20-44 | the flag keeps the key, takes its type from the value type, and takes the value from the field that type names; UNRECOGNIZED raises |
| ProtobufConverter.FromComputedFlagInvertsToComputedFlag | src/main/java/io/appflags/sdk/utils/ProtobufConverter.java:20-44 | converting a well-typed flag to a computed flag and back gives the same flag |
| ProtobufConverter.FromComputedFlagIgnoresOtherFields | src/main/java/io/appflags/sdk/utils/ProtobufConverter.java:20-44 | the value fields the type does not name have no influence on the result |
| AppFlagsClient.EdgeUrlOf | src/main/java/io/appflags/sdk/AppFlagsClient.java:42 | the client's edge URL is the override when one is given, otherwise the `EDGE_URL` constant `https://edge.appflags.net` (line 28) |
| AppFlagsClient.DefaultOptionsUsePublicEdge | src/main/java/io/appflags/sdk/AppFlagsClient.java:28-46 | without an override the client talks to `https://edge.appflags.net`, and without configuration options it polls every ten minutes |
| AppFlagsClient.NewClient | src/main/java/io/appflags/sdk/AppFlagsClient.java:40-52 | the client is built exactly when the manager starts and the bucketing module takes its configuration; a manager failure or a bridge fault raises; a built client holds that manager and a fresh bridge loaded with its configuration, no handlers and healthy pin bookkeeping |
| AppFlagsClient.NewClientSurvivesDiscoveryFailure | src/main/java/io/appflags/sdk/managers/configuration/ConfigurationManager.java:73-79 | where the manager's constructor as written raises, the client is still built, without a realtime listener |
| AppFlagsClient.AllFlags | src/main/java/io/appflags/sdk/AppFlagsClient.java:106-110 | the flag map raises exactly when a computed flag has an unrecognized type; otherwise its keys are the result's keys, each entry is well typed, and the last computed flag with a key decides its entry |
| AppFlagsClient.SelectFlag | src/main/java/io/appflags/sdk/AppFlagsClient.java:90-101 | a missing key gives null, a present flag of another type raises a type mismatch, otherwise the flag of the requested type |
| AppFlagsClient.SelectFlagFindsLastEntry | src/main/java/io/appflags/sdk/AppFlagsClient.java:90-110 | the lookup is null exactly when no computed flag has the key; otherwise the last such flag is returned or raises a type mismatch, according to its converted type |
| AppFlagsClient.GetAllFlags | src/main/java/io/appflags/sdk/AppFlagsClient.java:103-111 | buckets the serialized user; a guest fault or an unparsable result raises; otherwise the flag map of the result; only the bridge changes and it stays healthy |
| AppFlagsClient.GetFlag | src/main/java/io/appflags/sdk/AppFlagsClient.java:78-101 | a failure to get the flags raises; a missing key gives null; a flag of another type raises a type mismatch; a found flag has the key, the requested type and a value of that type |
| AppFlagsClient.GetBooleanVariation | src/main/java/io/appflags/sdk/AppFlagsClient.java:54-60 | the default when the flag is missing, the flag's boolean when it is present, and the lookup's exception otherwise |
| AppFlagsClient.GetNumberVariation | src/main/java/io/appflags/sdk/AppFlagsClient.java:62-68 | the default when the flag is missing, the flag's double when it is present, and the lookup's exception otherwise |
| AppFlagsClient.GetStringVariation | src/main/java/io/appflags/sdk/AppFlagsClient.java:70-76 | the default when the flag is missing, the flag's string when it is present, and the lookup's exception otherwise |
| AppFlagsClient.VariationsSelectFromResult | src/main/java/io/appflags/sdk/AppFlagsClient.java:54-88 | each typed variation is the typed value of the lookup in the flag map built from the user's bucketing result |
| AppFlagsClient.BooleanVariationFollowsLastEntry | src/main/java/io/appflags/sdk/AppFlagsClient.java:54-60 | the boolean variation is the default exactly when no flag has the key; otherwise the last flag with the key gives its boolean, or a type mismatch raises |
| AppFlagsClient.NumberVariationFollowsLastEntry | src/main/java/io/appflags/sdk/AppFlagsClient.java:62-68 | the number variation is the default exactly when no flag has the key; otherwise the last flag with the key gives its double, or a type mismatch raises |
| AppFlagsClient.StringVariationFollowsLastEntry | src/main/java/io/appflags/sdk/AppFlagsClient.java:70-76 | the string variation is the default exactly when no flag has the key; otherwise the last flag with the key gives its string, or a type mismatch raises |
| AppFlagsClient.VariationsRaiseOnBucketingFault | src/main/java/io/appflags/sdk/AppFlagsClient.java:54-76 | a failed bucketing call raises from every variation rather than returning the default |
| AppFlagsClient.AddConfigurationChangedHandler | src/main/java/io/appflags/sdk/AppFlagsClient.java:118-120 | the handler is appended to the registered list and nothing else changes |
| AppFlagsClient.HandleConfigurationUpdate | src/main/java/io/appflags/sdk/AppFlagsClient.java:113-126 | the manager's configuration is loaded into the bucketing module; if that succeeds every registered handler is submitted once, in order; the bridge stays healthy |
| AppFlagsClient.Refresh | src/main/java/io/appflags/sdk/AppFlagsClient.java:113-116 | a poll or notification that is discarded or fails changes nothing; an accepted one replaces the configuration and reloads the bucketing module; the answer is true exactly when that reload succeeds, and then every handler is submitted once; a failed reload raises the bridge fault and submits nothing |
| AppFlagsClient.ServeKeepsClientHealthy | src/main/java/io/appflags/sdk/AppFlagsClient.java:103-126 | over any sequence of lookups, reloads and registrations the pin bookkeeping stays exact and only registered handlers are ever submitted |
| AppFlagsClient.Close | src/main/java/io/appflags/sdk/AppFlagsClient.java:128-133 | closing the client closes its manager and keeps the configuration |

## Left out

- Networking: HTTP, the JSON and Base64 envelopes, the SSE transport and the `Authorization` header (and so the SDK key) are not modelled. The fetch, the discovery request and the message decoder are parameters.
- WebAssembly engine: the wasmtime engine, linker and module loading are not modelled. The bucketing module is a black box given by its exported functions.
- `readString`, `abort` and `console.log`: these only produce log text.
- Protobuf serialization: `toByteArray` and `parseFrom` are parameters. The serialized configuration is carried as bytes.
- Concurrency: `synchronized`, the scheduler, the reload executor and the callback thread pool are not modelled. Each call runs to completion, and a handler's execution is modelled by submitting it in order.
- Timing: the polling period is computed but no clock is modelled.
- `Double`: a Java `double` is kept as its bit pattern. `Double.toString` for the realtime URL is a parameter.
- `PlatformDataUtil` and `DaemonThreadFactory`: they only supply request metadata and threads.
- Logging: all log calls are left out.
- Executor shutdown in the `close` methods is left out.
- ConfigurationOptions.java is not part of this model. Its one field, the optional polling period, is taken from its use in the constructor.
- The wire number behind `UNRECOGNIZED` is not modelled. Every value type the generated enum does not know is that one constant.
- Exceptions that change handlers raise on the callback pool are not modelled, because they never reach the client.
- BucketingManager.RunKeepsInvariants: the guest's exports are total functions of the memory, so a WebAssembly trap is not modelled. A trap in the second `__new` or halfway through `unpinAll` would leave the tracked list and the guest's pins apart; the invariant is proved for runs without traps only.
- AppFlagsClient.NewClient: built on the corrected `ConfigurationManager.Initialize`, so a failed discovery request does not stop construction. The constructor as written raises there; see Findings and `NewClientSurvivesDiscoveryFailure`.
- ProtobufConverter.ToProtoUser: a user key is a string and cannot be null. In the source a null key would make `setKey` throw a `NullPointerException`.

## Findings

| source | as written | input that shows it | evidently intended | confidence | as-written member | corrected member |
|---|---|---|---|---|---|---|
| src/main/java/io/appflags/sdk/managers/configuration/ConfigurationManager.java:73-79 | the constructor catches only `IOException` around starting the realtime listener, but the listener wraps a discovery `IOException` in the unchecked `AppFlagsException` (ConfigurationUpdateListener.java:62-66), so construction itself fails | an initial configuration that names an environment, and a discovery request `<edge>/realtimeToken/<env>/eventSource` that throws an `IOException` | log the error and continue without realtime updates, as the handler's message says | medium, not executed | ConfigurationManager.DiscoveryFailureAbortsConstruction | ConfigurationManager.Initialize |

=== FILE: app_flags_client.dfy ===
/** `AppFlagsClient`: the SDK's entry point. It keeps a configuration
    manager and a bucketing bridge, answers flag lookups by bucketing the
    user against the current configuration, and pushes every accepted
    configuration to the bucketing module before notifying the registered
    change handlers.

    The foreign parts arrive in a `Host`: the configuration fetch and the
    realtime discovery request, the WebAssembly guest, and the protobuf
    codec for `User` and `BucketingResult` messages. A change handler is
    identified by a number; invoking one is recorded by submitting that
    number to the callback pool. */
module AppFlagsClient {
  import opened Wrappers
  import opened Models
  import P = Protos
  import PC = ProtobufConverter
  import CM = ConfigurationManager
  import BM = BucketingManager
  import GuestMemory

  const EdgeUrl: string := "https://edge.appflags.net"

  /** Protobuf serialization of a `User` and parsing of a `BucketingResult`
      into its `flags` list (None when the bytes do not parse). */
  datatype Codec = Codec(
    encodeUser: P.User -> GuestMemory.Bytes,
    decodeResult: GuestMemory.Bytes -> Option<seq<P.ComputedFlag>>)

  datatype Host = Host(
    fetch: CM.Fetch,
    discover: string -> Option<string>,
    guest: BM.Guest,
    codec: Codec,
    render: Double -> string)

  type Handler = nat

  type FlagMap = map<string, AppFlagsFlag>

  datatype Client = Client(
    manager: CM.Manager,
    bridge: BM.Bridge,
    handlers: seq<Handler>,      // `changeHandlers`, in registration order
    submitted: seq<Handler>)     // handlers handed to the callback pool so far

  datatype ClientError =
    | ManagerFailed(managerError: CM.ManagerError)
    | BucketingFailed(fault: GuestMemory.Fault)
    | ResultDecodeFailed                               // "Error decoding BucketingResult proto"
    | ConversionFailed(conversionError: PC.ConversionError)
    | TypeMismatch(flagKey: string, flagType: FlagType) // "Flag <key> is not of type <type>"

  /** A call's outcome: the client after it and what it returned or raised. */
  datatype Answer<+T> = Answer(client: Client, result: Result<T, ClientError>)

  // ---------------------------------------------------------------- construction

  /** The override when given, otherwise the public edge. */
  function EdgeUrlOf(options: ClientOptions): (r: string)
    ensures options.edgeUrlOverride.None? ==> r == EdgeUrl
    ensures options.edgeUrlOverride.Some? ==> r == options.edgeUrlOverride.value
  {
    options.edgeUrlOverride.GetOr(EdgeUrl)
  }

  /** The configuration options when given, otherwise the builder's defaults. */
  function ConfigurationOptionsOf(options: ClientOptions): ConfigurationOptions {
    options.configurationOptions.GetOr(ConfigurationOptions(None))
  }

  /** A client built with default options talks to the public edge and polls every ten minutes. */
  lemma DefaultOptionsUsePublicEdge(options: ClientOptions)
    ensures options.edgeUrlOverride.None? ==> EdgeUrlOf(options) == "https://edge.appflags.net"
    ensures options.edgeUrlOverride.Some? ==> EdgeUrlOf(options) == options.edgeUrlOverride.value
    ensures options.configurationOptions.None? ==>
      CM.PollingPeriod(ConfigurationOptionsOf(options).pollingPeriodMs) == 600000
  {
  }

  /** The bridge invariants, and a configuration the manager can hand out. */
  predicate Healthy(c: Client) {
    BM.PinsTracked(c.bridge) && BM.ReadsFollowBucket(c.bridge.trace) && c.manager.configuration.Some?
  }

  /** The constructor: start the configuration manager (whose initial load
      is the only fatal failure), then load its configuration into a blank
      bucketing bridge over `memory`. */
  function NewClient(options: ClientOptions, host: Host, memory: GuestMemory.Memory): (r: Result<Client, ClientError>)
    ensures var m := CM.Initialize(EdgeUrlOf(options), ConfigurationOptionsOf(options), host.fetch, host.discover);
      && (m.Failure? ==> r == Failure(ManagerFailed(m.error)))
      && (m.Success? ==>
            var s := BM.SetConfiguration(host.guest, BM.Bridge(memory, [], []), m.value.configuration.value.document);
            && (r.Success? <==> s.result.Success?)
            && (s.result.Failure? ==> r == Failure(BucketingFailed(s.result.error))))
      && (r.Success? ==>
            && m.Success?
            && r.value.manager == m.value
            && r.value.handlers == [] && r.value.submitted == []
            && r.value.bridge ==
                 BM.Perform(host.guest, BM.Bridge(memory, [], []), BM.Load(m.value.configuration.value.document))
            && Healthy(r.value))
  {
    match CM.Initialize(EdgeUrlOf(options), ConfigurationOptionsOf(options), host.fetch, host.discover)
    case Failure(e) => Failure(ManagerFailed(e))
    case Success(m) =>
      var blank := BM.Bridge(memory, [], []);
      var s := BM.SetConfiguration(host.guest, blank, m.configuration.value.document);
      BM.PerformKeepsInvariants(host.guest, blank, BM.Load(m.configuration.value.document));
      match s.result
      case Failure(f) => Failure(BucketingFailed(f))
      case Success(_) => Success(Client(m, s.bridge, [], []))
  }

  /** Where the manager's constructor as written raises because the
      environment's discovery request fails, the client is still built
      (without realtime updates) once the bucketing module takes the
      configuration. */
  lemma NewClientSurvivesDiscoveryFailure(options: ClientOptions, host: Host, memory: GuestMemory.Memory)
    requires var loaded := CM.LoadConfiguration(EdgeUrlOf(options), None, CM.INITIAL_LOAD, host.fetch);
      && loaded.Success?
      && BM.SetConfiguration(host.guest, BM.Bridge(memory, [], []), loaded.value.document).result.Success?
    requires CM.InitializeAsWritten(EdgeUrlOf(options), ConfigurationOptionsOf(options), host.fetch, host.discover).Failure?
    ensures NewClient(options, host, memory).Success?
    ensures NewClient(options, host, memory).value.manager.listener.None?
  {
  }

  // ---------------------------------------------------------------- flags

  /** Entry `i` is the last one in `flags` carrying `key`. */
  predicate LastWithKey(flags: seq<P.ComputedFlag>, key: string, i: int) {
    0 <= i < |flags| && flags[i].key == key && forall j :: i < j < |flags| ==> flags[j].key != key
  }

  /** The keys among `flags`. */
  function KeysOf(flags: seq<P.ComputedFlag>): set<string> {
    set i | 0 <= i < |flags| :: flags[i].key
  }

  /** Every computed flag has a value type the converter accepts. */
  predicate Recognized(flags: seq<P.ComputedFlag>) {
    forall i :: 0 <= i < |flags| ==> flags[i].valueType != P.UNRECOGNIZED
  }

  /** The map `getAllFlags` builds from a bucketing result: one entry per
      key, the last computed flag with that key winning; any flag of an
      unrecognized value type raises. */
  function AllFlags(flags: seq<P.ComputedFlag>): (r: Result<FlagMap, ClientError>)
    ensures r.Success? <==> Recognized(flags)
    ensures r.Failure? ==> r.error == ConversionFailed(PC.UnexpectedFlagValueType(P.UNRECOGNIZED))
    ensures r.Success? ==> r.value.Keys == KeysOf(flags)
    ensures r.Success? ==> forall k :: k in r.value ==> WellTyped(r.value[k]) && r.value[k].key == k
    ensures r.Success? ==> forall i :: 0 <= i < |flags| && LastWithKey(flags, flags[i].key, i) ==>
      PC.FromComputedFlag(flags[i]) == Success(r.value[flags[i].key])
    decreases |flags|
  {
    if |flags| == 0 then Success(map[])
    else
      var init := flags[..|flags| - 1];
      var last := flags[|flags| - 1];
      RecognizedSnoc(flags);
      var rest :- AllFlags(init);
      var flag :- PC.FromComputedFlag(last).MapFailure(e => ConversionFailed(e));
      KeysOfSnoc(flags);
      LastEntryWinsSnoc(flags, rest, flag);
      Success(rest[last.key := flag])
  }

  lemma RecognizedSnoc(flags: seq<P.ComputedFlag>)
    requires |flags| > 0
    ensures Recognized(flags) <==>
      Recognized(flags[..|flags| - 1]) && flags[|flags| - 1].valueType != P.UNRECOGNIZED
  {
    var init := flags[..|flags| - 1];
    assert forall i :: 0 <= i < |init| ==> init[i] == flags[i];
  }

  lemma KeysOfSnoc(flags: seq<P.ComputedFlag>)
    requires |flags| > 0
    ensures KeysOf(flags) == KeysOf(flags[..|flags| - 1]) + {flags[|flags| - 1].key}
  {
    var init := flags[..|flags| - 1];
    assert forall i :: 0 <= i < |init| ==> init[i] == flags[i];
    forall k | k in KeysOf(flags)
      ensures k in KeysOf(init) + {flags[|flags| - 1].key}
    {
      var i :| 0 <= i < |flags| && flags[i].key == k;
      if i < |init| {
        assert init[i].key == k;
      }
    }
  }

  /** Adding the last entry's flag keeps "the last entry with a key decides". */
  lemma LastEntryWinsSnoc(flags: seq<P.ComputedFlag>, rest: FlagMap, flag: AppFlagsFlag)
    requires |flags| > 0
    requires rest.Keys == KeysOf(flags[..|flags| - 1])
    requires var init := flags[..|flags| - 1];
      forall i :: 0 <= i < |init| && LastWithKey(init, init[i].key, i) ==>
        PC.FromComputedFlag(init[i]) == Success(rest[init[i].key])
    requires PC.FromComputedFlag(flags[|flags| - 1]) == Success(flag)
    ensures var m := rest[flags[|flags| - 1].key := flag];
      m.Keys == KeysOf(flags) &&
      forall i :: 0 <= i < |flags| && LastWithKey(flags, flags[i].key, i) ==>
        PC.FromComputedFlag(flags[i]) == Success(m[flags[i].key])
  {
    var init := flags[..|flags| - 1];
    var last := flags[|flags| - 1];
    var m := rest[last.key := flag];
    KeysOfSnoc(flags);
    assert forall i :: 0 <= i < |flags| ==> flags[i].key in KeysOf(flags);
    forall i | 0 <= i < |flags| && LastWithKey(flags, flags[i].key, i)
      ensures PC.FromComputedFlag(flags[i]) == Success(m[flags[i].key])
    {
      if i < |init| {
        assert init[i] == flags[i];
        assert LastWithKey(init, init[i].key, i);
      }
    }
  }

  /** `getFlag` after the map is built: absent is null, a present flag of
      another type raises, otherwise the flag. */
  function SelectFlag(flags: FlagMap, key: string, flagType: FlagType): (r: Result<Option<AppFlagsFlag>, ClientError>)
    ensures r.Success? && r.value.None? <==> key !in flags
    ensures r.Failure? <==> key in flags && flags[key].flagType != flagType
    ensures r.Failure? ==> r.error == TypeMismatch(key, flagType)
    ensures r.Success? && r.value.Some? ==> r.value.value == flags[key] && r.value.value.flagType == flagType
  {
    if key !in flags then Success(None)
    else if flags[key].flagType != flagType then Failure(TypeMismatch(key, flagType))
    else Success(Some(flags[key]))
  }

  /** The lookup against the bucketing result itself: null when no
      computed flag has the key; otherwise the last such flag decides,
      yielding it when its value type converts to the requested type and
      raising when it converts to another. */
  lemma SelectFlagFindsLastEntry(flags: seq<P.ComputedFlag>, key: string, flagType: FlagType)
    requires AllFlags(flags).Success?
    ensures (forall i :: 0 <= i < |flags| ==> flags[i].key != key) <==> SelectFlag(AllFlags(flags).value, key, flagType) == Success(None)
    ensures forall i :: LastWithKey(flags, key, i) ==>
      && (PC.FromFlagValueType(flags[i].valueType) == Success(flagType) ==>
            SelectFlag(AllFlags(flags).value, key, flagType) == Success(Some(PC.FromComputedFlag(flags[i]).value)))
      && (PC.FromFlagValueType(flags[i].valueType) != Success(flagType) ==>
            SelectFlag(AllFlags(flags).value, key, flagType) == Failure(TypeMismatch(key, flagType)))
  {
    var m := AllFlags(flags).value;
    if key in m {
      var i :| 0 <= i < |flags| && flags[i].key == key;
    }
    forall i | LastWithKey(flags, key, i)
      ensures m[key] == PC.FromComputedFlag(flags[i]).value
    {
      assert flags[i].key == key;
    }
  }

  /** The serialized `User` message the guest buckets. */
  function UserBytes(host: Host, user: AppFlagsUser): GuestMemory.Bytes {
    host.codec.encodeUser(PC.ToProtoUser(user))
  }

  /** `getAllFlags`: bucket the user, parse the result, build the map.
      Only the bridge changes, and it stays healthy. */
  function GetAllFlags(host: Host, c: Client, user: AppFlagsUser): (r: Answer<FlagMap>)
    requires Healthy(c)
    ensures var s := BM.Bucket(host.guest, c.bridge, UserBytes(host, user));
      && r.client == c.(bridge := BM.Perform(host.guest, c.bridge, BM.Compute(UserBytes(host, user))))
      && Healthy(r.client)
      && (s.result.Failure? ==> r.result == Failure(BucketingFailed(s.result.error)))
      && (s.result.Success? && host.codec.decodeResult(s.result.value).None? ==> r.result == Failure(ResultDecodeFailed))
      && (s.result.Success? && host.codec.decodeResult(s.result.value).Some? ==>
            r.result == AllFlags(host.codec.decodeResult(s.result.value).value))
  {
    var s := BM.Bucket(host.guest, c.bridge, UserBytes(host, user));
    BM.PerformKeepsInvariants(host.guest, c.bridge, BM.Compute(UserBytes(host, user)));
    var c' := c.(bridge := s.bridge);
    match s.result
    case Failure(f) => Answer(c', Failure(BucketingFailed(f)))
    case Success(bytes) =>
      match host.codec.decodeResult(bytes)
      case None => Answer(c', Failure(ResultDecodeFailed))
      case Some(flags) => Answer(c', AllFlags(flags))
  }

  /** `getFlag`: the typed lookup in the user's flags. A failure to get the
      flags raises; otherwise a missing key gives null, a flag of another
      type raises, and a found flag has the requested key and type and
      carries a value of that type. The client changes as `getAllFlags`
      changes it. */
  function GetFlag(host: Host, c: Client, key: string, user: AppFlagsUser, flagType: FlagType): (r: Answer<Option<AppFlagsFlag>>)
    requires Healthy(c)
    ensures var a := GetAllFlags(host, c, user);
      && r.client == a.client
      && (a.result.Failure? ==> r.result == Failure(a.result.error))
      && (a.result.Success? ==>
            && (r.result == Success(None) <==> key !in a.result.value)
            && (r.result.Failure? <==> key in a.result.value && a.result.value[key].flagType != flagType)
            && (r.result.Failure? ==> r.result.error == TypeMismatch(key, flagType))
            && (r.result.Success? && r.result.value.Some? ==>
                  var f := r.result.value.value;
                  f == a.result.value[key] && f.key == key && f.flagType == flagType && WellTyped(f)))
  {
    var a := GetAllFlags(host, c, user);
    match a.result
    case Failure(e) => Answer(a.client, Failure(e))
    case Success(flags) => Answer(a.client, SelectFlag(flags, key, flagType))
  }

  /** A flag `getFlag` finds has the requested type and a value of that type. */
  lemma FoundFlagIsWellTyped(host: Host, c: Client, key: string, user: AppFlagsUser, flagType: FlagType)
    requires Healthy(c)
    ensures var r := GetFlag(host, c, key, user, flagType).result;
      r.Success? && r.value.Some? ==> r.value.value.flagType == flagType && WellTyped(r.value.value)
  {
  }

  /** The typed value a variation returns for `getFlag`'s outcome: the
      default for a missing flag, otherwise the flag's value. */
  function BooleanOf(selected: Result<Option<AppFlagsFlag>, ClientError>, default: Option<bool>): Result<Option<bool>, ClientError> {
    match selected
    case Failure(e) => Failure(e)
    case Success(None) => Success(default)
    case Success(Some(flag)) => Success(if flag.value.BooleanValue? then Some(flag.value.boolean) else default)
  }

  function NumberOf(selected: Result<Option<AppFlagsFlag>, ClientError>, default: Option<Double>): Result<Option<Double>, ClientError> {
    match selected
    case Failure(e) => Failure(e)
    case Success(None) => Success(default)
    case Success(Some(flag)) => Success(if flag.value.NumberValue? then Some(flag.value.number) else default)
  }

  function StringOf(selected: Result<Option<AppFlagsFlag>, ClientError>, default: Option<string>): Result<Option<string>, ClientError> {
    match selected
    case Failure(e) => Failure(e)
    case Success(None) => Success(default)
    case Success(Some(flag)) => Success(if flag.value.StringValue? then Some(flag.value.str) else default)
  }

  /** `getBooleanVariation`: the default when the flag is absent, the flag's
      value when it is present, and `getFlag`'s exception otherwise. */
  function GetBooleanVariation(host: Host, c: Client, key: string, user: AppFlagsUser, default: Option<bool>): (r: Answer<Option<bool>>)
    requires Healthy(c)
    ensures var a := GetFlag(host, c, key, user, BOOLEAN);
      && r.client == a.client
      && (a.result.Failure? ==> r.result == Failure(a.result.error))
      && (a.result == Success(None) ==> r.result == Success(default))
      && (a.result.Success? && a.result.value.Some? ==>
            a.result.value.value.value.BooleanValue? && r.result == Success(Some(a.result.value.value.value.boolean)))
  {
    var a := GetFlag(host, c, key, user, BOOLEAN);
    FoundFlagIsWellTyped(host, c, key, user, BOOLEAN);
    Answer(a.client, BooleanOf(a.result, default))
  }

  /** `getNumberVariation`: the default when the flag is absent, the flag's
      value when it is present, and `getFlag`'s exception otherwise. */
  function GetNumberVariation(host: Host, c: Client, key: string, user: AppFlagsUser, default: Option<Double>): (r: Answer<Option<Double>>)
    requires Healthy(c)
    ensures var a := GetFlag(host, c, key, user, NUMBER);
      && r.client == a.client
      && (a.result.Failure? ==> r.result == Failure(a.result.error))
      && (a.result == Success(None) ==> r.result == Success(default))
      && (a.result.Success? && a.result.value.Some? ==>
            a.result.value.value.value.NumberValue? && r.result == Success(Some(a.result.value.value.value.number)))
  {
    var a := GetFlag(host, c, key, user, NUMBER);
    FoundFlagIsWellTyped(host, c, key, user, NUMBER);
    Answer(a.client, NumberOf(a.result, default))
  }

  /** `getStringVariation`: the default when the flag is absent, the flag's
      value when it is present, and `getFlag`'s exception otherwise. */
  function GetStringVariation(host: Host, c: Client, key: string, user: AppFlagsUser, default: Option<string>): (r: Answer<Option<string>>)
    requires Healthy(c)
    ensures var a := GetFlag(host, c, key, user, STRING);
      && r.client == a.client
      && (a.result.Failure? ==> r.result == Failure(a.result.error))
      && (a.result == Success(None) ==> r.result == Success(default))
      && (a.result.Success? && a.result.value.Some? ==>
            a.result.value.value.value.StringValue? && r.result == Success(Some(a.result.value.value.value.str)))
  {
    var a := GetFlag(host, c, key, user, STRING);
    FoundFlagIsWellTyped(host, c, key, user, STRING);
    Answer(a.client, StringOf(a.result, default))
  }

  /** The user's bucketing result, when the guest returns one that parses. */
  predicate BucketsTo(host: Host, c: Client, user: AppFlagsUser, flags: seq<P.ComputedFlag>) {
    var s := BM.Bucket(host.guest, c.bridge, UserBytes(host, user));
    s.result.Success? && host.codec.decodeResult(s.result.value) == Some(flags)
  }

  /** Each variation is its typed value of the selection from the map
      built from the user's bucketing result. */
  lemma VariationsSelectFromResult(host: Host, c: Client, key: string, user: AppFlagsUser, flags: seq<P.ComputedFlag>,
                                   b: Option<bool>, n: Option<Double>, s: Option<string>)
    requires Healthy(c) && BucketsTo(host, c, user, flags) && AllFlags(flags).Success?
    ensures GetBooleanVariation(host, c, key, user, b).result == BooleanOf(SelectFlag(AllFlags(flags).value, key, BOOLEAN), b)
    ensures GetNumberVariation(host, c, key, user, n).result == NumberOf(SelectFlag(AllFlags(flags).value, key, NUMBER), n)
    ensures GetStringVariation(host, c, key, user, s).result == StringOf(SelectFlag(AllFlags(flags).value, key, STRING), s)
  {
  }

  /** A boolean variation against the bucketing result: the default
      exactly when no computed flag has the key; otherwise the last one
      with the key gives its boolean, or raises when it is not a boolean. */
  lemma BooleanVariationFollowsLastEntry(flags: seq<P.ComputedFlag>, key: string, default: Option<bool>)
    requires AllFlags(flags).Success?
    ensures (forall i :: 0 <= i < |flags| ==> flags[i].key != key) ==>
      BooleanOf(SelectFlag(AllFlags(flags).value, key, BOOLEAN), default) == Success(default)
    ensures forall i :: LastWithKey(flags, key, i) ==>
      BooleanOf(SelectFlag(AllFlags(flags).value, key, BOOLEAN), default) ==
        (if flags[i].valueType == P.BOOLEAN then Success(Some(flags[i].value.booleanValue))
         else Failure(TypeMismatch(key, BOOLEAN)))
  {
    SelectFlagFindsLastEntry(flags, key, BOOLEAN);
  }

  /** A number variation likewise, for DOUBLE flags. */
  lemma NumberVariationFollowsLastEntry(flags: seq<P.ComputedFlag>, key: string, default: Option<Double>)
    requires AllFlags(flags).Success?
    ensures (forall i :: 0 <= i < |flags| ==> flags[i].key != key) ==>
      NumberOf(SelectFlag(AllFlags(flags).value, key, NUMBER), default) == Success(default)
    ensures forall i :: LastWithKey(flags, key, i) ==>
      NumberOf(SelectFlag(AllFlags(flags).value, key, NUMBER), default) ==
        (if flags[i].valueType == P.DOUBLE then Success(Some(flags[i].value.doubleValue))
         else Failure(TypeMismatch(key, NUMBER)))
  {
    SelectFlagFindsLastEntry(flags, key, NUMBER);
  }

  /** A string variation likewise, for STRING flags. */
  lemma StringVariationFollowsLastEntry(flags: seq<P.ComputedFlag>, key: string, default: Option<string>)
    requires AllFlags(flags).Success?
    ensures (forall i :: 0 <= i < |flags| ==> flags[i].key != key) ==>
      StringOf(SelectFlag(AllFlags(flags).value, key, STRING), default) == Success(default)
    ensures forall i :: LastWithKey(flags, key, i) ==>
      StringOf(SelectFlag(AllFlags(flags).value, key, STRING), default) ==
        (if flags[i].valueType == P.STRING then Success(Some(flags[i].value.stringValue))
         else Failure(TypeMismatch(key, STRING)))
  {
    SelectFlagFindsLastEntry(flags, key, STRING);
  }

  /** A failed bucketing call raises from every variation: the default is
      only for a flag that is absent. */
  lemma VariationsRaiseOnBucketingFault(host: Host, c: Client, key: string, user: AppFlagsUser,
                                        b: Option<bool>, n: Option<Double>, s: Option<string>)
    requires Healthy(c)
    requires BM.Bucket(host.guest, c.bridge, UserBytes(host, user)).result.Failure?
    ensures GetBooleanVariation(host, c, key, user, b).result.Failure?
    ensures GetNumberVariation(host, c, key, user, n).result.Failure?
    ensures GetStringVariation(host, c, key, user, s).result.Failure?
  {
  }

  // ---------------------------------------------------------------- configuration updates

  /** `addConfigurationChangedHandler`. */
  function AddConfigurationChangedHandler(c: Client, h: Handler): (r: Client)
    ensures r == c.(handlers := r.handlers)
    ensures r.handlers == c.handlers + [h]
  {
    c.(handlers := c.handlers + [h])
  }

  /** `handleConfigurationUpdate`, the manager's callback: load the
      manager's configuration into the bucketing module, then submit every
      handler to the callback pool in registration order. */
  function HandleConfigurationUpdate(host: Host, c: Client): (r: Answer<()>)
    requires Healthy(c)
    ensures var s := BM.SetConfiguration(host.guest, c.bridge, c.manager.configuration.value.document);
      && r.client.manager == c.manager && r.client.handlers == c.handlers
      && r.client.bridge == BM.Perform(host.guest, c.bridge, BM.Load(c.manager.configuration.value.document))
      && Healthy(r.client)
      && (r.result.Success? <==> s.result.Success?)
      && (r.result.Success? ==> r.client.submitted == c.submitted + c.handlers)
      && (r.result.Failure? ==> r.client.submitted == c.submitted && r.result.error == BucketingFailed(s.result.error))
  {
    var doc := c.manager.configuration.value.document;
    var s := BM.SetConfiguration(host.guest, c.bridge, doc);
    BM.PerformKeepsInvariants(host.guest, c.bridge, BM.Load(doc));
    match s.result
    case Failure(f) => Answer(c.(bridge := s.bridge), Failure(BucketingFailed(f)))
    case Success(_) => Answer(c.(bridge := s.bridge, submitted := c.submitted + c.handlers), Success(()))
  }

  /** What makes the manager look for a newer configuration: the poll
      task, or a realtime notification carrying the new `published`. */
  datatype Trigger = PollTick | Notified(published: Double)

  /** The manager's reload for `t`, as the manager alone would do it. */
  function Reload(host: Host, m: CM.Manager, t: Trigger): Result<CM.Offered, CM.ManagerError> {
    match t
    case PollTick => CM.Poll(m, host.fetch)
    case Notified(published) => CM.RealtimeReload(m, published, host.render, host.fetch)
  }

  /** A reload as the client sees it: an accepted configuration reaches the
      bucketing module and the handlers exactly once; a discarded or failed
      one changes nothing. The answer is whether it was accepted. */
  function Refresh(host: Host, c: Client, t: Trigger): (r: Answer<bool>)
    requires Healthy(c)
    ensures Healthy(r.client)
    ensures r.client.handlers == c.handlers
    ensures var o := Reload(host, c.manager, t);
      && (o.Failure? ==> r == Answer(c, Failure(ManagerFailed(o.error))))
      && (o.Success? && !o.value.accepted ==> r == Answer(c, Success(false)))
      && (o.Success? && o.value.accepted ==>
            && r.client.manager == o.value.manager
            && r.client.bridge == BM.Perform(host.guest, c.bridge, BM.Load(o.value.manager.configuration.value.document))
            && (r.result.Success? <==>
                  BM.SetConfiguration(host.guest, c.bridge, o.value.manager.configuration.value.document).result.Success?)
            && (r.result.Success? ==> r.result == Success(true) && r.client.submitted == c.submitted + c.handlers)
            && (r.result.Failure? ==> r.client.submitted == c.submitted && r.result.error.BucketingFailed?))
  {
    match Reload(host, c.manager, t)
    case Failure(e) => Answer(c, Failure(ManagerFailed(e)))
    case Success(o) =>
      if !o.accepted then Answer(c, Success(false))
      else
        var a := HandleConfigurationUpdate(host, c.(manager := o.manager));
        Answer(a.client, if a.result.Success? then Success(true) else Failure(a.result.error))
  }

  // ---------------------------------------------------------------- sessions

  /** One public operation on the client. */
  datatype Request =
    | Flags(user: AppFlagsUser)
    | Update(trigger: Trigger)
    | Register(handler: Handler)

  function Serve(host: Host, c: Client, q: Request): Client
    requires Healthy(c)
  {
    match q
    case Flags(user) => GetAllFlags(host, c, user).client
    case Update(t) => Refresh(host, c, t).client
    case Register(h) => AddConfigurationChangedHandler(c, h)
  }

  /** Every handler submitted so far is a registered one. */
  predicate SubmittedRegistered(c: Client) {
    forall i :: 0 <= i < |c.submitted| ==> c.submitted[i] in c.handlers
  }

  /** Submitting the registered handlers, or nothing, and registering more keeps submissions registered. */
  lemma KeepsRegistered(c: Client, c': Client)
    requires SubmittedRegistered(c)
    requires c.handlers <= c'.handlers
    requires c'.submitted == c.submitted || c'.submitted == c.submitted + c.handlers
    ensures SubmittedRegistered(c')
  {
    forall i | 0 <= i < |c'.submitted|
      ensures c'.submitted[i] in c'.handlers
    {
      var k :| 0 <= k < |c.handlers| && c.handlers[k] == c'.submitted[i] by {
        if i < |c.submitted| {
          assert c'.submitted[i] == c.submitted[i];
        } else {
          assert c'.submitted[i] == c.handlers[i - |c.submitted|];
        }
      }
      assert c'.handlers[k] == c.handlers[k];
    }
  }

  /** One request keeps the client healthy and submits only registered handlers. */
  lemma ServeKeepsOneStep(host: Host, c: Client, q: Request)
    requires Healthy(c) && SubmittedRegistered(c)
    ensures var c' := Serve(host, c, q);
      Healthy(c') && SubmittedRegistered(c') && |c'.submitted| >= |c.submitted|
  {
    match q
    case Flags(user) =>
      KeepsRegistered(c, GetAllFlags(host, c, user).client);
    case Update(t) =>
      var r := Refresh(host, c, t);
      assert r.client.submitted == c.submitted || r.client.submitted == c.submitted + c.handlers;
      KeepsRegistered(c, r.client);
    case Register(h) =>
      KeepsRegistered(c, AddConfigurationChangedHandler(c, h));
  }

  /** Any sequence of requests: the client stays healthy, so the host's
      pinned pointers always match the guest's, and every handler ever
      submitted is a registered one. */
  lemma {:induction false} ServeKeepsClientHealthy(host: Host, c: Client, qs: seq<Request>)
    requires Healthy(c) && SubmittedRegistered(c)
    ensures var c' := ServeAll(host, c, qs);
      Healthy(c') && SubmittedRegistered(c') && |c'.submitted| >= |c.submitted|
    decreases |qs|
  {
    if |qs| > 0 {
      ServeKeepsOneStep(host, c, qs[0]);
      ServeKeepsClientHealthy(host, Serve(host, c, qs[0]), qs[1..]);
    }
  }

  function ServeAll(host: Host, c: Client, qs: seq<Request>): Client
    requires Healthy(c)
    decreases |qs|
  {
    if |qs| == 0 then c
    else
      var c1 := Serve(host, c, qs[0]);
      ServeAll(host, c1, qs[1..])
  }

  /** `close`: stop the manager's realtime listener. */
  function Close(c: Client): (r: Client)
    ensures r == c.(manager := CM.Close(c.manager))
    ensures r.manager.configuration == c.manager.configuration
  {
    c.(manager := CM.Close(c.manager))
  }
}

=== FILE: bucketing_manager.dfy ===
/** The host side of the bucketing bridge: marshalling byte arrays into and
    out of the guest's linear memory in the guest's `Uint8Array` layout, and
    the `pinnedPointers` bookkeeping that keeps the guest's collector from
    reclaiming buffers the host still uses.

    The guest module is a black box: its exports are the function-valued
    fields of `Guest`, each taking the memory as it is before the call and
    returning the memory after it. */
module BucketingManager {
  import opened Wrappers
  import opened GuestMemory

  const ArrayBufferClassId: i32 := 1
  const Uint8ArrayClassId: i32 := 8
  /** Size of a `Uint8Array` object: backing pointer, data pointer, length. */
  const Uint8ArrayLength: i32 := 12

  /** The guest exports the bridge calls. */
  datatype Guest = Guest(
    allocate: (Memory, i32, i32) -> (Memory, i32),   // __new(size, classId)
    pin: (Memory, i32) -> Memory,                    // __pin(pointer)
    unpin: (Memory, i32) -> Memory,                  // __unpin(pointer)
    setConfiguration: (Memory, i32) -> Memory,       // setConfiguration(uint8ArrayPointer)
    bucket: (Memory, i32) -> (Memory, i32))          // bucket(uint8ArrayPointer) returns a result pointer

  /** One step of the host's interaction with the guest, in the order it happens. */
  datatype Event =
    | NewCall(size: i32, classId: i32, pointer: i32)   // __new and the pointer it returned
    | PinCall(pointer: i32)
    | UnpinCall(pointer: i32)
    | SetConfigurationCall(pointer: i32)
    | BucketCall(pointer: i32)
    | ReadResult(pointer: i32)                          // the host copies a result data out

  /** The bridge's state: guest memory, the `pinnedPointers` list, and the history of events. */
  datatype Bridge = Bridge(memory: Memory, pinned: seq<i32>, trace: seq<Event>)

  /** An operation's outcome: the bridge state after it (which changes even
      when the operation throws) and its result or fault. */
  datatype Step<+T> = Step(bridge: Bridge, result: Result<T, Fault>)

  /** Memory after a sequence of writes that stops at the first out-of-bounds index. */
  datatype Stored = Stored(memory: Memory, fault: Option<Fault>)

  datatype Allocation = Allocation(bridge: Bridge, backing: i32, wrapper: i32)

  // ---------------------------------------------------------------- layout

  predicate HeaderFits(m: Memory, wrapper: int) {
    0 <= wrapper && wrapper + Uint8ArrayLength as int <= |m|
  }

  predicate PayloadFits(m: Memory, backing: int, length: int) {
    length == 0 || (0 <= backing && backing + length <= |m|)
  }

  /** Position `j` lies outside the `length` bytes starting at `at`. */
  predicate Outside(j: int, at: int, length: int) {
    !(at <= j < at + length)
  }

  /** The 12-byte wrapper and the payload do not overlap. */
  predicate Disjoint(wrapper: int, backing: int, length: int) {
    length == 0 || backing + length <= wrapper || wrapper + Uint8ArrayLength as int <= backing
  }

  /** The payload copy loop of `writeUint8Array` (one `buffer.put` per byte):
      on an out-of-bounds index the bytes before it stay written. */
  function PutBytes(m: Memory, at: i32, data: Bytes): (r: Stored)
    ensures |r.memory| == |m|
    ensures r.fault.None? <==> PayloadFits(m, at, |data|)
    ensures r.fault.None? && |data| > 0 ==> r.memory[at..at + |data|] == data
    ensures r.fault.Some? && 0 <= at < |m| ==> r.memory[at..] == data[..|m| - at]
    ensures forall j :: 0 <= j < |m| && Outside(j, at, |data|) ==> r.memory[j] == m[j]
  {
    if |data| == 0 then Stored(m, None)
    else if at < 0 || at >= |m| then Stored(m, Some(IndexOutOfBounds(at)))
    else if at + |data| <= |m| then Stored(m[..at] + data + m[at + |data|..], None)
    else Stored(m[..at] + data[..|m| - at], Some(IndexOutOfBounds(|m|)))
  }

  /** The same copy, written as the source's loop over `i`. */
  method PutBytesLoop(m: Memory, at: i32, data: Bytes) returns (r: Stored)
    ensures r == PutBytes(m, at, data)
  {
    var mem := m;
    var i := 0;
    while i < |data|
      invariant 0 <= i <= |data|
      invariant |mem| == |m|
      invariant i > 0 ==> 0 <= at && at + i <= |m| && mem == m[..at] + data[..i] + m[at + i..]
      invariant i == 0 ==> mem == m
    {
      var index := Add(at, i);
      if !(0 <= index < |mem|) {
        if i > 0 {
          assert index == |m| && m[at + i..] == [];
        }
        return Stored(mem, Some(IndexOutOfBounds(index)));
      }
      mem := mem[index := data[i]];
      i := i + 1;
      assert mem == m[..at] + data[..i] + m[at + i..];
    }
    if i > 0 {
      assert data[..i] == data;
    }
    return Stored(mem, None);
  }

  /** The three `putInt` calls of `writeUint8Array`: the backing pointer at
      +0 and +4, the length at +8. */
  function PutHeader(m: Memory, wrapper: i32, backing: i32, length: i32): (r: Stored)
    ensures |r.memory| == |m|
    ensures r.fault.None? <==> HeaderFits(m, wrapper)
    ensures r.fault.None? ==>
      && r.memory[wrapper..wrapper + 4] == EncodeInt(backing)
      && r.memory[wrapper + 4..wrapper + 8] == EncodeInt(backing)
      && r.memory[wrapper + 8..wrapper + 12] == EncodeInt(length)
    ensures forall j :: 0 <= j < |m| && Outside(j, wrapper, 12) ==> r.memory[j] == m[j]
  {
    match PutInt(m, wrapper, backing)
    case Failure(e) => Stored(m, Some(e))
    case Success(m1) =>
      match PutInt(m1, Add(wrapper, 4), backing)
      case Failure(e) => Stored(m1, Some(e))
      case Success(m2) =>
        match PutInt(m2, Add(wrapper, 8), length)
        case Failure(e) => Stored(m2, Some(e))
        case Success(m3) =>
          assert m3[wrapper..wrapper + 4] == m2[wrapper..wrapper + 4] == m1[wrapper..wrapper + 4];
          assert m3[wrapper + 4..wrapper + 8] == m2[wrapper + 4..wrapper + 8];
          Stored(m3, None)
  }

  /** The memory writes of `writeUint8Array`: the header, then the payload
      into the backing buffer. */
  function StoreUint8Array(m: Memory, wrapper: i32, backing: i32, data: Bytes): (r: Stored)
    ensures |r.memory| == |m|
    ensures r.fault.None? <==> HeaderFits(m, wrapper) && PayloadFits(m, backing, |data|)
    ensures r.fault.None? && |data| > 0 ==> r.memory[backing..backing + |data|] == data
    ensures r.fault.None? && Disjoint(wrapper, backing, |data|) ==>
      && r.memory[wrapper..wrapper + 4] == EncodeInt(backing)
      && r.memory[wrapper + 4..wrapper + 8] == EncodeInt(backing)
      && r.memory[wrapper + 8..wrapper + 12] == EncodeInt(|data|)
    ensures forall j :: 0 <= j < |m| && Outside(j, wrapper, 12) && Outside(j, backing, |data|) ==> r.memory[j] == m[j]
  {
    var h := PutHeader(m, wrapper, backing, |data|);
    if h.fault.Some? then h
    else
      var r := PutBytes(h.memory, backing, data);
      if r.fault.None? && Disjoint(wrapper, backing, |data|) then
        PayloadKeepsHeader(h.memory, r.memory, wrapper, backing, |data|);
        r
      else r
  }

  lemma PayloadKeepsHeader(before: Memory, after: Memory, wrapper: int, backing: int, length: int)
    requires |after| == |before| && HeaderFits(before, wrapper) && Disjoint(wrapper, backing, length)
    requires forall j :: 0 <= j < |before| && Outside(j, backing, length) ==> after[j] == before[j]
    ensures after[wrapper..wrapper + 12] == before[wrapper..wrapper + 12]
    ensures after[wrapper..wrapper + 4] == before[wrapper..wrapper + 4]
    ensures after[wrapper + 4..wrapper + 8] == before[wrapper + 4..wrapper + 8]
    ensures after[wrapper + 8..wrapper + 12] == before[wrapper + 8..wrapper + 12]
  {
    assert forall j :: wrapper <= j < wrapper + 12 ==> Outside(j, backing, length);
  }

  /** `readUint8Array`: the backing pointer from +4, the length from +8, then
      `length` bytes copied out of the backing buffer. */
  function ReadUint8Array(m: Memory, pointer: i32): (r: Result<Bytes, Fault>)
    ensures r.Success? ==> IntFits(m, Add(pointer, 4)) && IntFits(m, Add(pointer, 8))
    ensures r.Success? ==> EncodeInt(|r.value|) == m[Add(pointer, 8)..Add(pointer, 8) + 4]
    ensures r.Success? && |r.value| > 0 ==>
      var backing := GetInt(m, Add(pointer, 4)).value;
      0 <= backing && backing + |r.value| <= |m| && r.value == m[backing..backing + |r.value|]
  {
    var backing :- GetInt(m, Add(pointer, 4));
    var length :- GetInt(m, Add(pointer, 8));
    if length < 0 then Failure(NegativeArraySize(length))
    else if length == 0 then Success([])
    else if backing < 0 || backing >= |m| then Failure(IndexOutOfBounds(backing))
    else if backing + length > |m| then Failure(IndexOutOfBounds(|m|))
    else Success(m[backing..backing + length])
  }

  /** `readUint8Array` as the source writes it: one `buffer.get` per byte. */
  method ReadUint8ArrayLoop(m: Memory, pointer: i32) returns (r: Result<Bytes, Fault>)
    ensures r == ReadUint8Array(m, pointer)
  {
    var backingRead := GetInt(m, Add(pointer, 4));
    if backingRead.Failure? {
      return Failure(backingRead.error);
    }
    var lengthRead := GetInt(m, Add(pointer, 8));
    if lengthRead.Failure? {
      return Failure(lengthRead.error);
    }
    var backing, length := backingRead.value, lengthRead.value;
    if length < 0 {
      return Failure(NegativeArraySize(length));
    }
    var data: seq<byte> := [];
    var i: i32 := 0;
    while i < length
      invariant 0 <= i <= length
      invariant i > 0 ==> 0 <= backing && backing + i <= |m| && data == m[backing..backing + i]
      invariant i == 0 ==> data == []
    {
      var index := Add(backing, i);
      if !(0 <= index < |m|) {
        return Failure(IndexOutOfBounds(index));
      }
      data := data + [m[index]];
      i := i + 1;
    }
    return Success(data);
  }

  /** Round trip: reading the wrapper just written yields the data written,
      provided the wrapper and the payload fit and do not overlap. */
  lemma {:induction false} StoreThenRead(m: Memory, wrapper: i32, backing: i32, data: Bytes)
    requires HeaderFits(m, wrapper) && PayloadFits(m, backing, |data|)
    requires Disjoint(wrapper, backing, |data|)
    ensures StoreUint8Array(m, wrapper, backing, data).fault.None?
    ensures ReadUint8Array(StoreUint8Array(m, wrapper, backing, data).memory, wrapper) == Success(data)
  {
    var m' := StoreUint8Array(m, wrapper, backing, data).memory;
    ReadWellFormed(m', wrapper, backing, |data|);
  }

  /** Reading a wrapper whose header holds `backing` and `length`. */
  lemma ReadWellFormed(m: Memory, wrapper: i32, backing: i32, length: i32)
    requires HeaderFits(m, wrapper) && length >= 0 && PayloadFits(m, backing, length)
    requires m[wrapper + 4..wrapper + 8] == EncodeInt(backing)
    requires m[wrapper + 8..wrapper + 12] == EncodeInt(length)
    ensures ReadUint8Array(m, wrapper) == Success(if length == 0 then [] else m[backing..backing + length])
  {
    assert Add(wrapper, 4) == wrapper + 4 && Add(wrapper, 8) == wrapper + 8;
    EncodingIsInjective(GetInt(m, wrapper + 4).value, backing);
    EncodingIsInjective(GetInt(m, wrapper + 8).value, length);
  }

  lemma EncodingIsInjective(x: i32, y: i32)
    requires EncodeInt(x) == EncodeInt(y)
    ensures x == y
  {
    DecodeEncode(x);
    DecodeEncode(y);
  }

  // ---------------------------------------------------------------- pins

  /** `pinPointer`: pin in the guest and remember the pointer, so the
      host's list keeps matching what the guest holds pinned. */
  function PinPointer(g: Guest, b: Bridge, p: i32): (r: Bridge)
    ensures r.memory == g.pin(b.memory, p)
    ensures r.pinned == b.pinned + [p] && r.trace == b.trace + [PinCall(p)]
    ensures PinsTracked(b) ==> PinsTracked(r)
  {
    OutstandingSnoc(b.trace, PinCall(p));
    Bridge(g.pin(b.memory, p), b.pinned + [p], b.trace + [PinCall(p)])
  }

  /** The unpin calls `unpinAll` issues for `ps`, in list order. */
  function Unpins(ps: seq<i32>): seq<Event> {
    seq(|ps|, i requires 0 <= i < |ps| => UnpinCall(ps[i]))
  }

  /** The guest memory after `__unpin` on each pointer of `ps`, first to last. */
  function UnpinEach(g: Guest, m: Memory, ps: seq<i32>): Memory
    decreases |ps|
  {
    if |ps| == 0 then m else UnpinEach(g, g.unpin(m, ps[0]), ps[1..])
  }

  /** `unpinAll`: one `__unpin` per tracked pointer, in list order, then an empty list. */
  function UnpinAll(g: Guest, b: Bridge): (r: Bridge)
    ensures r.memory == UnpinEach(g, b.memory, b.pinned)
    ensures r.pinned == []
    ensures r.trace == b.trace + Unpins(b.pinned)
    decreases |b.pinned|
  {
    if |b.pinned| == 0 then b
    else
      var r := UnpinAll(g, Bridge(g.unpin(b.memory, b.pinned[0]), b.pinned[1..], b.trace + [UnpinCall(b.pinned[0])]));
      assert b.trace + [UnpinCall(b.pinned[0])] + Unpins(b.pinned[1..]) == b.trace + Unpins(b.pinned);
      r
  }

  /** The events of one `writeUint8Array` before it touches memory. */
  function WriteEvents(length: i32, backing: i32, wrapper: i32): seq<Event> {
    [NewCall(length, ArrayBufferClassId, backing), PinCall(backing),
     NewCall(Uint8ArrayLength, Uint8ArrayClassId, wrapper), PinCall(wrapper)]
  }

  /** The guest calls of `writeUint8Array`: allocate the backing buffer
      (class 1, `length` bytes) and pin it, then the wrapper (class 8, 12
      bytes) and pin it. */
  function AllocateWrapper(g: Guest, b: Bridge, length: i32): (r: Allocation)
    ensures r.bridge.pinned == b.pinned + [r.backing, r.wrapper]
    ensures r.bridge.trace == b.trace + WriteEvents(length, r.backing, r.wrapper)
    ensures var (m1, backing) := g.allocate(b.memory, length, ArrayBufferClassId);
      var (m2, wrapper) := g.allocate(g.pin(m1, backing), Uint8ArrayLength, Uint8ArrayClassId);
      r.backing == backing && r.wrapper == wrapper && r.bridge.memory == g.pin(m2, wrapper)
  {
    var (m1, backing) := g.allocate(b.memory, length, ArrayBufferClassId);
    var b1 := PinPointer(g, Bridge(m1, b.pinned, b.trace + [NewCall(length, ArrayBufferClassId, backing)]), backing);
    var (m2, wrapper) := g.allocate(b1.memory, Uint8ArrayLength, Uint8ArrayClassId);
    var b2 := PinPointer(g, Bridge(m2, b1.pinned, b1.trace + [NewCall(Uint8ArrayLength, Uint8ArrayClassId, wrapper)]), wrapper);
    Allocation(b2, backing, wrapper)
  }

  /** `writeUint8Array`: returns the wrapper pointer. */
  function WriteUint8Array(g: Guest, b: Bridge, data: Bytes): (r: Step<i32>)
    ensures var a := AllocateWrapper(g, b, |data|);
      && r.bridge.pinned == b.pinned + [a.backing, a.wrapper]
      && r.bridge.trace == b.trace + WriteEvents(|data|, a.backing, a.wrapper)
      && |r.bridge.memory| == |a.bridge.memory|
      && (r.result.Success? <==> HeaderFits(a.bridge.memory, a.wrapper) && PayloadFits(a.bridge.memory, a.backing, |data|))
      && (r.result.Success? ==> r.result.value == a.wrapper)
      && (r.result.Success? && Disjoint(a.wrapper, a.backing, |data|) ==>
            ReadUint8Array(r.bridge.memory, a.wrapper) == Success(data))
      && (forall j :: 0 <= j < |a.bridge.memory| && Outside(j, a.wrapper, 12) && Outside(j, a.backing, |data|) ==>
            r.bridge.memory[j] == a.bridge.memory[j])
  {
    var a := AllocateWrapper(g, b, |data|);
    var stored := StoreUint8Array(a.bridge.memory, a.wrapper, a.backing, data);
    if stored.fault.None? && Disjoint(a.wrapper, a.backing, |data|) then
      StoreThenRead(a.bridge.memory, a.wrapper, a.backing, data);
      Step(a.bridge.(memory := stored.memory), Success(a.wrapper))
    else
      Step(a.bridge.(memory := stored.memory),
           if stored.fault.None? then Success(a.wrapper) else Failure(stored.fault.value))
  }

  // ---------------------------------------------------------------- entry points

  /** `setConfiguration`: release the previous call's pins, write the
      configuration, then hand the wrapper to the guest. */
  function SetConfiguration(g: Guest, b: Bridge, config: Bytes): (r: Step<()>)
    ensures |r.bridge.pinned| == 2
    ensures r.bridge.trace == b.trace + Unpins(b.pinned) + WriteEvents(|config|, r.bridge.pinned[0], r.bridge.pinned[1])
                              + (if r.result.Success? then [SetConfigurationCall(r.bridge.pinned[1])] else [])
    ensures var w := WriteUint8Array(g, UnpinAll(g, b), config);
      && r.bridge.pinned == w.bridge.pinned
      && (w.result.Success? ==> r.bridge.pinned[1] == w.result.value)
      && (r.result.Success? <==> w.result.Success?)
      && (r.result.Failure? ==> r == Step(w.bridge, Failure(w.result.error)))
      && (r.result.Success? ==>
            && r.bridge.memory == g.setConfiguration(w.bridge.memory, r.bridge.pinned[1])
            && (Disjoint(r.bridge.pinned[1], r.bridge.pinned[0], |config|) ==>
                  ReadUint8Array(w.bridge.memory, r.bridge.pinned[1]) == Success(config)))
  {
    var w := WriteUint8Array(g, UnpinAll(g, b), config);
    match w.result
    case Failure(e) => Step(w.bridge, Failure(e))
    case Success(wrapper) =>
      Step(w.bridge.(memory := g.setConfiguration(w.bridge.memory, wrapper),
                     trace := w.bridge.trace + [SetConfigurationCall(wrapper)]),
           Success(()))
  }

  /** `bucket`: release the previous call's pins, write the user, call the
      guest, and copy the result data out before anything else happens. */
  function Bucket(g: Guest, b: Bridge, user: Bytes): (r: Step<Bytes>)
    ensures |r.bridge.pinned| == 2
    ensures var w := WriteUint8Array(g, UnpinAll(g, b), user);
      var prefix := b.trace + Unpins(b.pinned) + WriteEvents(|user|, r.bridge.pinned[0], r.bridge.pinned[1]);
      && r.bridge.pinned == w.bridge.pinned
      && (w.result.Success? ==> r.bridge.pinned[1] == w.result.value)
      && (w.result.Failure? ==> r == Step(w.bridge, Failure(w.result.error)) && r.bridge.trace == prefix)
      && (w.result.Success? ==>
            var (m, resultPointer) := g.bucket(w.bridge.memory, r.bridge.pinned[1]);
            && r.bridge.memory == m
            && r.bridge.trace == prefix + [BucketCall(r.bridge.pinned[1]), ReadResult(resultPointer)]
            && r.result == ReadUint8Array(m, resultPointer)
            && (Disjoint(r.bridge.pinned[1], r.bridge.pinned[0], |user|) ==>
                  ReadUint8Array(w.bridge.memory, r.bridge.pinned[1]) == Success(user)))
  {
    var w := WriteUint8Array(g, UnpinAll(g, b), user);
    match w.result
    case Failure(e) => Step(w.bridge, Failure(e))
    case Success(wrapper) =>
      var (m, resultPointer) := g.bucket(w.bridge.memory, wrapper);
      Step(w.bridge.(memory := m, trace := w.bridge.trace + [BucketCall(wrapper), ReadResult(resultPointer)]),
           ReadUint8Array(m, resultPointer))
  }

  // ---------------------------------------------------------------- call sequences

  /** A request a caller makes of the bridge: load a configuration or bucket a user. */
  datatype Call = Load(config: Bytes) | Compute(user: Bytes)

  function Perform(g: Guest, b: Bridge, c: Call): Bridge {
    match c
    case Load(config) => SetConfiguration(g, b, config).bridge
    case Compute(user) => Bucket(g, b, user).bridge
  }

  function Run(g: Guest, b: Bridge, calls: seq<Call>): Bridge
    decreases |calls|
  {
    if |calls| == 0 then b else Run(g, Perform(g, b, calls[0]), calls[1..])
  }

  /** The pointers the guest holds pinned according to the history: pins minus unpins. */
  function Outstanding(t: seq<Event>): multiset<i32>
    decreases |t|
  {
    if |t| == 0 then multiset{}
    else
      var rest := Outstanding(t[..|t| - 1]);
      match t[|t| - 1]
      case PinCall(p) => rest + multiset{p}
      case UnpinCall(p) => rest - multiset{p}
      case _ => rest
  }

  /** The host's `pinnedPointers` is exactly what the guest holds pinned. */
  predicate PinsTracked(b: Bridge) {
    multiset(b.pinned) == Outstanding(b.trace)
  }

  /** Every result read directly follows the `bucket` call that produced it,
      so no unpin can come between the two. */
  predicate ReadsFollowBucket(t: seq<Event>) {
    forall i :: 0 <= i < |t| && t[i].ReadResult? ==> 0 < i && t[i - 1].BucketCall?
  }

  lemma OutstandingSnoc(t: seq<Event>, e: Event)
    ensures e.PinCall? ==> Outstanding(t + [e]) == Outstanding(t) + multiset{e.pointer}
    ensures e.UnpinCall? ==> Outstanding(t + [e]) == Outstanding(t) - multiset{e.pointer}
    ensures !e.PinCall? && !e.UnpinCall? ==> Outstanding(t + [e]) == Outstanding(t)
  {
    assert (t + [e])[..|t|] == t;
  }

  lemma {:induction false} OutstandingAfterUnpins(t: seq<Event>, ps: seq<i32>)
    ensures Outstanding(t + Unpins(ps)) == Outstanding(t) - multiset(ps)
    decreases |ps|
  {
    if |ps| == 0 {
      assert t + Unpins(ps) == t;
    } else {
      var n := |ps| - 1;
      var front := t + Unpins(ps[..n]);
      UnpinsSnoc(t, ps);
      OutstandingAfterUnpins(t, ps[..n]);
      OutstandingSnoc(front, UnpinCall(ps[n]));
      RemoveOneMore(Outstanding(t), ps);
    }
  }

  lemma UnpinsSnoc(t: seq<Event>, ps: seq<i32>)
    requires |ps| > 0
    ensures t + Unpins(ps) == t + Unpins(ps[..|ps| - 1]) + [UnpinCall(ps[|ps| - 1])]
  {
    UnpinsLast(ps);
  }

  lemma UnpinsLast(ps: seq<i32>)
    requires |ps| > 0
    ensures Unpins(ps) == Unpins(ps[..|ps| - 1]) + [UnpinCall(ps[|ps| - 1])]
  {
    var n := |ps| - 1;
    var a, c := Unpins(ps), Unpins(ps[..n]) + [UnpinCall(ps[n])];
    assert |a| == |c|;
    forall i | 0 <= i < |a|
      ensures a[i] == c[i]
    {
      if i < n {
        assert c[i] == Unpins(ps[..n])[i] == UnpinCall(ps[..n][i]);
      }
    }
    assert a == c;
  }

  lemma RemoveOneMore(a: multiset<i32>, ps: seq<i32>)
    requires |ps| > 0
    ensures a - multiset(ps[..|ps| - 1]) - multiset{ps[|ps| - 1]} == a - multiset(ps)
  {
    assert ps == ps[..|ps| - 1] + [ps[|ps| - 1]];
  }

  lemma OutstandingAfterWrite(t: seq<Event>, length: i32, backing: i32, wrapper: i32)
    ensures Outstanding(t + WriteEvents(length, backing, wrapper)) == Outstanding(t) + multiset{backing, wrapper}
  {
    var e := WriteEvents(length, backing, wrapper);
    assert t + e == t + [e[0]] + [e[1]] + [e[2]] + [e[3]];
    OutstandingSnoc(t, e[0]);
    OutstandingSnoc(t + [e[0]], e[1]);
    OutstandingSnoc(t + [e[0]] + [e[1]], e[2]);
    OutstandingSnoc(t + [e[0]] + [e[1]] + [e[2]], e[3]);
  }

  /** The tail a call appends after its write events. */
  predicate CallTail(tail: seq<Event>) {
    || tail == []
    || (|tail| == 1 && tail[0].SetConfigurationCall?)
    || (|tail| == 2 && tail[0].BucketCall? && tail[1].ReadResult?)
  }

  lemma ReadsFollowBucketAppend(t: seq<Event>, s: seq<Event>)
    requires ReadsFollowBucket(t) && ReadsFollowBucket(s)
    ensures ReadsFollowBucket(t + s)
  {
    forall i | 0 <= i < |t + s| && (t + s)[i].ReadResult?
      ensures 0 < i && (t + s)[i - 1].BucketCall?
    {
      if i >= |t| {
        assert (t + s)[i] == s[i - |t|];
        assert (t + s)[i - 1] == s[i - |t| - 1];
      }
    }
  }

  lemma CallEventsReadAfterBucket(ps: seq<i32>, length: i32, p0: i32, p1: i32, tail: seq<Event>)
    requires CallTail(tail)
    ensures ReadsFollowBucket(Unpins(ps) + WriteEvents(length, p0, p1) + tail)
  {
    var s := Unpins(ps) + WriteEvents(length, p0, p1) + tail;
    var k := |ps| + 4;
    forall i | 0 <= i < |s|
      ensures s[i].ReadResult? ==> 0 < i && s[i - 1].BucketCall?
    {
      if i < |ps| {
        assert s[i] == Unpins(ps)[i];
      } else if i < k {
        assert s[i] == WriteEvents(length, p0, p1)[i - |ps|];
      } else {
        assert s[i] == tail[i - k];
        if i == k + 1 {
          assert s[i - 1] == tail[0];
        }
      }
    }
  }

  /** The guest calls after the writes neither pin nor unpin. */
  lemma OutstandingAfterTail(w: seq<Event>, tail: seq<Event>)
    requires CallTail(tail)
    ensures Outstanding(w + tail) == Outstanding(w)
  {
    if |tail| == 1 {
      OutstandingSnoc(w, tail[0]);
    } else if |tail| == 2 {
      assert w + tail == w + [tail[0]] + [tail[1]];
      OutstandingSnoc(w, tail[0]);
      OutstandingSnoc(w + [tail[0]], tail[1]);
    } else {
      assert w + tail == w;
    }
  }

  /** A history shaped like one call's pins exactly the call's two pointers. */
  lemma CallShapeKeepsPins(b: Bridge, b': Bridge, length: i32, tail: seq<Event>)
    requires PinsTracked(b)
    requires |b'.pinned| == 2 && CallTail(tail)
    requires b'.trace == b.trace + Unpins(b.pinned) + WriteEvents(length, b'.pinned[0], b'.pinned[1]) + tail
    ensures PinsTracked(b')
  {
    var p0, p1 := b'.pinned[0], b'.pinned[1];
    var t := b.trace + Unpins(b.pinned);
    OutstandingAfterUnpins(b.trace, b.pinned);
    OutstandingAfterWrite(t, length, p0, p1);
    OutstandingAfterTail(t + WriteEvents(length, p0, p1), tail);
    assert b'.pinned == [p0, p1];
  }

  /** A history shaped like one call's reads a result only right after the guest call. */
  lemma CallShapeKeepsReads(b: Bridge, b': Bridge, length: i32, tail: seq<Event>)
    requires ReadsFollowBucket(b.trace)
    requires |b'.pinned| == 2 && CallTail(tail)
    requires b'.trace == b.trace + Unpins(b.pinned) + WriteEvents(length, b'.pinned[0], b'.pinned[1]) + tail
    ensures ReadsFollowBucket(b'.trace)
  {
    var s := Unpins(b.pinned) + WriteEvents(length, b'.pinned[0], b'.pinned[1]) + tail;
    CallEventsReadAfterBucket(b.pinned, length, b'.pinned[0], b'.pinned[1], tail);
    assert b'.trace == b.trace + s;
    ReadsFollowBucketAppend(b.trace, s);
  }

  /** A history shaped like one call's keeps both invariants. */
  lemma CallShapeKeepsInvariants(b: Bridge, b': Bridge, length: i32, tail: seq<Event>)
    requires PinsTracked(b) && ReadsFollowBucket(b.trace)
    requires |b'.pinned| == 2 && CallTail(tail)
    requires b'.trace == b.trace + Unpins(b.pinned) + WriteEvents(length, b'.pinned[0], b'.pinned[1]) + tail
    ensures PinsTracked(b') && ReadsFollowBucket(b'.trace)
  {
    CallShapeKeepsPins(b, b', length, tail);
    CallShapeKeepsReads(b, b', length, tail);
  }

  /** `setConfiguration` keeps the invariants and leaves its two pointers pinned. */
  lemma SetConfigurationKeepsInvariants(g: Guest, b: Bridge, config: Bytes)
    requires PinsTracked(b) && ReadsFollowBucket(b.trace)
    ensures var b' := SetConfiguration(g, b, config).bridge;
      && PinsTracked(b') && ReadsFollowBucket(b'.trace) && |b'.pinned| == 2
      && |b.trace| <= |b'.trace| && b'.trace[..|b.trace|] == b.trace
  {
    var r := SetConfiguration(g, b, config);
    var tail := if r.result.Success? then [SetConfigurationCall(r.bridge.pinned[1])] else [];
    CallShapeKeepsInvariants(b, r.bridge, |config|, tail);
  }

  /** `bucket` keeps the invariants and leaves its two pointers pinned. */
  lemma BucketKeepsInvariants(g: Guest, b: Bridge, user: Bytes)
    requires PinsTracked(b) && ReadsFollowBucket(b.trace)
    ensures var b' := Bucket(g, b, user).bridge;
      && PinsTracked(b') && ReadsFollowBucket(b'.trace) && |b'.pinned| == 2
      && |b.trace| <= |b'.trace| && b'.trace[..|b.trace|] == b.trace
  {
    var r := Bucket(g, b, user);
    var w := WriteUint8Array(g, UnpinAll(g, b), user);
    var tail := if w.result.Success? then [BucketCall(r.bridge.pinned[1]), ReadResult(g.bucket(w.bridge.memory, r.bridge.pinned[1]).1)] else [];
    CallShapeKeepsInvariants(b, r.bridge, |user|, tail);
  }

  /** One load or compute call: the pins of the previous call are released
      and exactly this call's two allocations are pinned, the result read
      follows the guest call, and the history only grows. */
  lemma PerformKeepsInvariants(g: Guest, b: Bridge, c: Call)
    requires PinsTracked(b) && ReadsFollowBucket(b.trace)
    ensures var b' := Perform(g, b, c);
      && PinsTracked(b') && ReadsFollowBucket(b'.trace) && |b'.pinned| == 2
      && |b.trace| <= |b'.trace| && b'.trace[..|b.trace|] == b.trace
  {
    match c
    case Load(config) => SetConfigurationKeepsInvariants(g, b, config);
    case Compute(user) => BucketKeepsInvariants(g, b, user);
  }

  /** Any sequence of calls: the invariants hold throughout, and after a
      non-empty sequence exactly the last call's two pointers are pinned, so
      pins never accumulate across calls. */
  lemma {:induction false} RunKeepsInvariants(g: Guest, b: Bridge, calls: seq<Call>)
    requires PinsTracked(b) && ReadsFollowBucket(b.trace)
    ensures var b' := Run(g, b, calls);
      && PinsTracked(b') && ReadsFollowBucket(b'.trace)
      && (|calls| > 0 ==> |b'.pinned| == 2)
      && |b.trace| <= |b'.trace| && b'.trace[..|b.trace|] == b.trace
    decreases |calls|
  {
    if |calls| > 0 {
      var b1 := Perform(g, b, calls[0]);
      PerformKeepsInvariants(g, b, calls[0]);
      RunKeepsInvariants(g, b1, calls[1..]);
      if |calls| == 1 {
        assert calls[1..] == [];
      }
    }
  }
}

=== FILE: configuration_manager.dfy ===
/** `ConfigurationManager`: holds the current configuration and replaces it
    only with a strictly newer one, fetched once by the poll task or on
    every realtime notification.

    The HTTP request (with its JSON and Base64 envelope) is foreign: a
    `Fetch` maps the request URL and load type to the configuration the
    response decodes to, or None when the call throws an IOException. */
module ConfigurationManager {
  import opened Wrappers
  import opened Timestamps
  import opened Models
  import GuestMemory
  import L = ConfigurationUpdateListener

  /** A `Configuration` message: its serialized bytes (handed to the
      bucketing module unread) and the two fields the SDK reads. */
  datatype Configuration = Configuration(document: GuestMemory.Bytes, published: Option<Timestamp>, environmentId: Option<string>)

  datatype LoadType = INITIAL_LOAD | PERIODIC_RELOAD | REALTIME_RELOAD

  type Fetch = (string, LoadType) -> Option<Configuration>

  datatype ManagerError =
    | NotInitialized                     // "Not initialized" / "ConfigurationManager not initialized"
    | CurrentMissingPublished
    | NewMissingPublished
    | InvalidTimestamp                   // `Timestamps.compare` rejects an out-of-range operand
    | LoadFailed(loadType: LoadType)     // the fetch threw an IOException
    | ListenerFailed(error: L.ListenerError)

  const OneMinMs: int := 60000
  const DefaultPollingPeriod: int := 10 * OneMinMs
  const ConfigPath: string := "/configuration/v1/config"
  const UpdateAtParameter: string := "?getUpdateAt="

  datatype Manager = Manager(
    edgeUrl: string,
    configuration: Option<Configuration>,
    pollingPeriodMs: int,
    listener: Option<L.Listener>)

  /** An accepted or discarded offer: the manager after it, and whether the
      update callback ran (it runs once per acceptance). */
  datatype Offered = Offered(manager: Manager, accepted: bool)

  // ---------------------------------------------------------------- polling period and URL

  /** The constructor's polling period: ten minutes by default, otherwise the
      option raised to at least one minute. */
  function PollingPeriod(optionMs: Option<int>): (r: int)
    ensures r >= OneMinMs
    ensures optionMs.None? ==> r == 600000
    ensures optionMs.Some? && optionMs.value >= OneMinMs ==> r == optionMs.value
    ensures optionMs.Some? && optionMs.value < OneMinMs ==> r == OneMinMs
  {
    if optionMs.None? then DefaultPollingPeriod
    else if optionMs.value > OneMinMs then optionMs.value else OneMinMs
  }

  /** Clamp law: any option below the floor behaves as the floor, and
      clamping an already clamped period changes nothing. */
  lemma PollingPeriodClamps(v: int, w: int)
    ensures v <= OneMinMs && w <= OneMinMs ==> PollingPeriod(Some(v)) == PollingPeriod(Some(w))
    ensures PollingPeriod(Some(PollingPeriod(Some(v)))) == PollingPeriod(Some(v))
    ensures v <= w ==> PollingPeriod(Some(v)) <= PollingPeriod(Some(w))
  {
  }

  /** The fetch URL of `loadConfiguration`: always the edge URL plus the
      config path; the query parameter is there exactly when a value is
      given, and then carries that value. */
  function ConfigUrl(edgeUrl: string, getUpdateAt: Option<string>): (r: string)
    ensures |r| >= |edgeUrl + ConfigPath| && r[..|edgeUrl + ConfigPath|] == edgeUrl + ConfigPath
    ensures r == edgeUrl + ConfigPath <==> getUpdateAt.None?
    ensures getUpdateAt.Some? ==> r[|edgeUrl + ConfigPath|..] == UpdateAtParameter + getUpdateAt.value
  {
    if getUpdateAt.Some? then (edgeUrl + ConfigPath) + (UpdateAtParameter + getUpdateAt.value)
    else edgeUrl + ConfigPath
  }

  /** Distinct `getUpdateAt` values give distinct URLs. */
  lemma ConfigUrlIsInjective(edgeUrl: string, a: Option<string>, b: Option<string>)
    requires ConfigUrl(edgeUrl, a) == ConfigUrl(edgeUrl, b)
    ensures a == b
  {
    if a.Some? && b.Some? {
      var base := edgeUrl + ConfigPath;
      var tail := ConfigUrl(edgeUrl, a)[|base|..];
      assert tail == UpdateAtParameter + a.value == UpdateAtParameter + b.value;
      assert a.value == tail[|UpdateAtParameter|..] == b.value;
    }
  }

  /** `loadConfiguration`: fetch from the URL for `getUpdateAt`. Logging the
      loaded configuration renders its `published` with `Timestamps.toString`,
      which raises for an out-of-range timestamp; an absent `published`
      reads as the zero timestamp, which is in range. */
  function LoadConfiguration(edgeUrl: string, getUpdateAt: Option<string>, loadType: LoadType, fetch: Fetch)
    : (r: Result<Configuration, ManagerError>)
    ensures var fetched := fetch(ConfigUrl(edgeUrl, getUpdateAt), loadType);
      && (fetched.None? ==> r == Failure(LoadFailed(loadType)))
      && (r.Success? <==> fetched.Some? && (fetched.value.published.Some? ==> IsValid(fetched.value.published.value)))
      && (r.Success? ==> fetched == Some(r.value))
      && (fetched.Some? && r.Failure? ==> r.error == InvalidTimestamp)
  {
    match fetch(ConfigUrl(edgeUrl, getUpdateAt), loadType)
    case None => Failure(LoadFailed(loadType))
    case Some(c) =>
      if c.published.Some? && !IsValid(c.published.value) then Failure(InvalidTimestamp) else Success(c)
  }

  // ---------------------------------------------------------------- the store

  /** `getConfiguration`. */
  function GetConfiguration(m: Manager): (r: Result<Configuration, ManagerError>)
    ensures r.Failure? <==> m.configuration.None?
    ensures r.Failure? ==> r.error == NotInitialized
    ensures r.Success? ==> m.configuration == Some(r.value)
  {
    if m.configuration.None? then Failure(NotInitialized) else Success(m.configuration.value)
  }

  /** The offer can be compared: both timestamps present and in range. */
  predicate Comparable(m: Manager, c: Configuration) {
    && m.configuration.Some? && m.configuration.value.published.Some? && c.published.Some?
    && IsValid(m.configuration.value.published.value) && IsValid(c.published.value)
  }

  /** `updateConfigurationIfNewer`: accept `newConfig` exactly when its
      `published` is strictly later; raise, changing nothing, when either
      side has no `published` or there is no current configuration. */
  function UpdateIfNewer(m: Manager, newConfig: Configuration): (r: Result<Offered, ManagerError>)
    ensures r.Success? <==> Comparable(m, newConfig)
    ensures m.configuration.None? ==> r == Failure(NotInitialized)
    ensures m.configuration.Some? && m.configuration.value.published.None? ==> r == Failure(CurrentMissingPublished)
    ensures m.configuration.Some? && m.configuration.value.published.Some? && newConfig.published.None? ==>
      r == Failure(NewMissingPublished)
    ensures r.Success? ==>
      (r.value.accepted <==> Before(m.configuration.value.published.value, newConfig.published.value))
    ensures r.Success? && r.value.accepted ==> r.value.manager == m.(configuration := Some(newConfig))
    ensures r.Success? && !r.value.accepted ==> r.value.manager == m
  {
    if m.configuration.None? then Failure(NotInitialized)
    else if m.configuration.value.published.None? then Failure(CurrentMissingPublished)
    else if newConfig.published.None? then Failure(NewMissingPublished)
    else
      match Compare(newConfig.published.value, m.configuration.value.published.value)
      case None => Failure(InvalidTimestamp)
      case Some(c) =>
        if c > 0 then Success(Offered(m.(configuration := Some(newConfig)), true))
        else Success(Offered(m, false))
  }

  /** The manager after one offer whose exception, if any, is swallowed by the task running it. */
  function OfferOnce(m: Manager, c: Configuration): Offered {
    match UpdateIfNewer(m, c)
    case Success(o) => o
    case Failure(_) => Offered(m, false)
  }

  /** The manager after offering each configuration in turn, and how many
      times the update callback ran. */
  function OfferAll(m: Manager, offers: seq<Configuration>): (Manager, nat)
    decreases |offers|
  {
    if |offers| == 0 then (m, 0)
    else
      var o := OfferOnce(m, offers[0]);
      var (m', n) := OfferAll(o.manager, offers[1..]);
      (m', n + if o.accepted then 1 else 0)
  }

  /** The current configuration's `published`, when there is one. */
  predicate HasValidPublished(m: Manager) {
    m.configuration.Some? && m.configuration.value.published.Some? && IsValid(m.configuration.value.published.value)
  }

  function Published(m: Manager): Timestamp
    requires HasValidPublished(m)
  {
    m.configuration.value.published.value
  }

  predicate AllPublished(offers: seq<Configuration>) {
    forall i :: 0 <= i < |offers| ==> offers[i].published.Some? && IsValid(offers[i].published.value)
  }

  /** The latest of `t` and every offer's `published`. */
  function LatestPublished(t: Timestamp, offers: seq<Configuration>): Timestamp
    requires AllPublished(offers)
    decreases |offers|
  {
    if |offers| == 0 then t else LatestPublished(Latest(t, offers[0].published.value), offers[1..])
  }

  /** How many offers are strictly later than the latest `published` before them. */
  function NewerCount(t: Timestamp, offers: seq<Configuration>): nat
    requires AllPublished(offers)
    decreases |offers|
  {
    if |offers| == 0 then 0
    else
      var p := offers[0].published.value;
      (if Before(t, p) then 1 else 0) + NewerCount(Latest(t, p), offers[1..])
  }

  /** Offering a configuration a second time is a no-op. */
  lemma RepeatedOfferIsNoOp(m: Manager, c: Configuration)
    requires UpdateIfNewer(m, c).Success?
    ensures UpdateIfNewer(UpdateIfNewer(m, c).value.manager, c) == Success(Offered(UpdateIfNewer(m, c).value.manager, false))
  {
    var m1 := UpdateIfNewer(m, c).value.manager;
    BeforeIsStrictTotalOrder(m.configuration.value.published.value, c.published.value, c.published.value);
  }

  /** `published` never decreases, whatever is offered (offers that raise change nothing). */
  lemma {:induction false} PublishedNeverDecreases(m: Manager, offers: seq<Configuration>)
    requires HasValidPublished(m)
    ensures HasValidPublished(OfferAll(m, offers).0)
    ensures !Before(Published(OfferAll(m, offers).0), Published(m))
    decreases |offers|
  {
    if |offers| > 0 {
      var o := OfferOnce(m, offers[0]);
      PublishedNeverDecreases(o.manager, offers[1..]);
      BeforeIsStrictTotalOrder(Published(OfferAll(m, offers).0), Published(o.manager), Published(m));
    }
  }

  /** After any sequence of valid offers, `published` is the latest of the
      initial and all offered timestamps, and the callback ran once per
      strictly newer offer. */
  lemma {:induction false} OffersConvergeToLatest(m: Manager, offers: seq<Configuration>)
    requires HasValidPublished(m) && AllPublished(offers)
    ensures HasValidPublished(OfferAll(m, offers).0)
    ensures Published(OfferAll(m, offers).0) == LatestPublished(Published(m), offers)
    ensures OfferAll(m, offers).1 == NewerCount(Published(m), offers) <= |offers|
    decreases |offers|
  {
    if |offers| > 0 {
      var o := OfferOnce(m, offers[0]);
      assert o.accepted <==> Before(Published(m), offers[0].published.value);
      assert Published(o.manager) == Latest(Published(m), offers[0].published.value);
      assert AllPublished(offers[1..]);
      OffersConvergeToLatest(o.manager, offers[1..]);
    }
  }

  /** Two offers converge to the later `published` in either order. */
  lemma OfferOrderDoesNotMatter(m: Manager, a: Configuration, b: Configuration)
    requires HasValidPublished(m) && AllPublished([a, b])
    ensures HasValidPublished(OfferAll(m, [a, b]).0) && HasValidPublished(OfferAll(m, [b, a]).0)
    ensures Published(OfferAll(m, [a, b]).0) == Published(OfferAll(m, [b, a]).0)
  {
    OffersConvergeToLatest(m, [a, b]);
    OffersConvergeToLatest(m, [b, a]);
    var t, x, y := Published(m), a.published.value, b.published.value;
    assert [a, b][1..] == [b] && [b, a][1..] == [a];
    BeforeIsStrictTotalOrder(t, x, y);
    BeforeIsStrictTotalOrder(x, y, t);
    BeforeIsStrictTotalOrder(y, t, x);
  }

  // ---------------------------------------------------------------- reloads

  /** What a reload does with what its fetch returned: a failed fetch raises
      with the load type; otherwise the reload succeeds exactly when the
      fetched and the current `published` are both present and in range, and
      then the manager takes the fetched configuration exactly when its
      `published` is strictly later, and is otherwise unchanged. */
  predicate ReloadOutcome(m: Manager, fetched: Option<Configuration>, loadType: LoadType,
                          r: Result<Offered, ManagerError>) {
    && (fetched.None? ==> r == Failure(LoadFailed(loadType)))
    && (r.Success? <==> fetched.Some? && Comparable(m, fetched.value))
    && (r.Success? ==>
          && (r.value.accepted <==> Before(m.configuration.value.published.value, fetched.value.published.value))
          && r.value.manager == if r.value.accepted then m.(configuration := fetched) else m)
  }

  /** The poll task, which the scheduler runs once after the polling period:
      load the configuration and offer it; an IOException is rethrown. */
  function Poll(m: Manager, fetch: Fetch): (r: Result<Offered, ManagerError>)
    ensures ReloadOutcome(m, fetch(ConfigUrl(m.edgeUrl, None), PERIODIC_RELOAD), PERIODIC_RELOAD, r)
    ensures var loaded := LoadConfiguration(m.edgeUrl, None, PERIODIC_RELOAD, fetch);
      && (loaded.Failure? ==> r == Failure(loaded.error))
      && (loaded.Success? ==> r == UpdateIfNewer(m, loaded.value))
  {
    match LoadConfiguration(m.edgeUrl, None, PERIODIC_RELOAD, fetch)
    case Failure(e) => Failure(e)
    case Success(c) => UpdateIfNewer(m, c)
  }

  /** `handleConfigurationUpdateEvent`: load the configuration as of the
      notified `published` (rendered by Java's `Double.toString`) and offer it. */
  function RealtimeReload(m: Manager, published: Double, render: Double -> string, fetch: Fetch): (r: Result<Offered, ManagerError>)
    ensures ReloadOutcome(m, fetch(ConfigUrl(m.edgeUrl, Some(render(published))), REALTIME_RELOAD), REALTIME_RELOAD, r)
    ensures var loaded := LoadConfiguration(m.edgeUrl, Some(render(published)), REALTIME_RELOAD, fetch);
      && (loaded.Failure? ==> r == Failure(loaded.error))
      && (loaded.Success? ==> r == UpdateIfNewer(m, loaded.value))
  {
    match LoadConfiguration(m.edgeUrl, Some(render(published)), REALTIME_RELOAD, fetch)
    case Failure(e) => Failure(e)
    case Success(c) => UpdateIfNewer(m, c)
  }

  /** A loaded configuration that carries `published` is always comparable
      with a valid current one: `UpdateIfNewer` then only fails for a
      missing `published`, never for an out-of-range one. */
  lemma LoadedOffersAreComparable(m: Manager, edgeUrl: string, getUpdateAt: Option<string>, loadType: LoadType,
                                  fetch: Fetch)
    requires HasValidPublished(m)
    requires LoadConfiguration(edgeUrl, getUpdateAt, loadType, fetch).Success?
    ensures var c := LoadConfiguration(edgeUrl, getUpdateAt, loadType, fetch).value;
      UpdateIfNewer(m, c).Success? <==> c.published.Some?
  {
  }

  // ---------------------------------------------------------------- construction

  /** The constructor as written: the initial fetch, the polling period, and
      a listener when the configuration names an environment. The
      listener's discovery failure is an unchecked exception, which the
      constructor's IOException handler does not catch. */
  function InitializeAsWritten(edgeUrl: string, options: ConfigurationOptions, fetch: Fetch,
                               discover: string -> Option<string>): (r: Result<Manager, ManagerError>)
    ensures var loaded := LoadConfiguration(edgeUrl, None, INITIAL_LOAD, fetch);
      && (loaded.Failure? ==> r == Failure(loaded.error))
      && (loaded.Success? ==>
            var config := loaded.value;
            var discovered := config.environmentId.None? || discover(L.DiscoveryUrl(edgeUrl, config.environmentId.value)).Some?;
            && (r.Success? <==> discovered)
            && (!discovered ==> r == Failure(ListenerFailed(L.DiscoveryFailed))))
      && (r.Success? ==>
            var config := loaded.value;
            && r.value.edgeUrl == edgeUrl
            && r.value.configuration == Some(config)
            && r.value.pollingPeriodMs == PollingPeriod(options.pollingPeriodMs)
            && (r.value.listener.Some? <==> config.environmentId.Some?)
            && (r.value.listener.Some? ==>
                  r.value.listener == L.Create(edgeUrl, config.environmentId.value, discover).ToOption()))
  {
    match LoadConfiguration(edgeUrl, None, INITIAL_LOAD, fetch)
    case Failure(e) => Failure(e)
    case Success(config) =>
      var period := PollingPeriod(options.pollingPeriodMs);
      if config.environmentId.None? then Success(Manager(edgeUrl, Some(config), period, None))
      else
        match L.Create(edgeUrl, config.environmentId.value, discover)
        case Failure(e) => Failure(ListenerFailed(e))
        case Success(l) => Success(Manager(edgeUrl, Some(config), period, Some(l)))
  }

  /** The discrepancy: a configuration naming an environment whose discovery
      request fails makes construction itself fail. */
  lemma DiscoveryFailureAbortsConstruction(edgeUrl: string, options: ConfigurationOptions, fetch: Fetch,
                                           discover: string -> Option<string>)
    requires LoadConfiguration(edgeUrl, None, INITIAL_LOAD, fetch).Success?
    requires LoadConfiguration(edgeUrl, None, INITIAL_LOAD, fetch).value.environmentId.Some?
    requires discover(L.DiscoveryUrl(edgeUrl, LoadConfiguration(edgeUrl, None, INITIAL_LOAD, fetch).value.environmentId.value)).None?
    ensures InitializeAsWritten(edgeUrl, options, fetch, discover) == Failure(ListenerFailed(L.DiscoveryFailed))
  {
  }

  /** The constructor as its error handler intends it: a failure to start
      the listener is logged and construction goes on without realtime
      updates. Only the initial fetch is fatal. */
  function Initialize(edgeUrl: string, options: ConfigurationOptions, fetch: Fetch,
                      discover: string -> Option<string>): (r: Result<Manager, ManagerError>)
    ensures var loaded := LoadConfiguration(edgeUrl, None, INITIAL_LOAD, fetch);
      && (r.Failure? <==> loaded.Failure?)
      && (r.Failure? ==> r.error == loaded.error)
      && (r.Success? ==>
            var config := loaded.value;
            && r.value.edgeUrl == edgeUrl
            && r.value.configuration == Some(config)
            && r.value.pollingPeriodMs == PollingPeriod(options.pollingPeriodMs)
            && (r.value.listener.Some? <==>
                  config.environmentId.Some? && discover(L.DiscoveryUrl(edgeUrl, config.environmentId.value)).Some?)
            && (r.value.listener.Some? ==>
                  r.value.listener == L.Create(edgeUrl, config.environmentId.value, discover).ToOption()))
  {
    match LoadConfiguration(edgeUrl, None, INITIAL_LOAD, fetch)
    case Failure(e) => Failure(e)
    case Success(config) =>
      var period := PollingPeriod(options.pollingPeriodMs);
      if config.environmentId.None? then Success(Manager(edgeUrl, Some(config), period, None))
      else
        match L.Create(edgeUrl, config.environmentId.value, discover)
        case Failure(_) => Success(Manager(edgeUrl, Some(config), period, None))
        case Success(l) => Success(Manager(edgeUrl, Some(config), period, Some(l)))
  }

  /** The two agree except where the discrepancy lies. */
  lemma InitializeMatchesAsWrittenOtherwise(edgeUrl: string, options: ConfigurationOptions, fetch: Fetch,
                                            discover: string -> Option<string>)
    ensures InitializeAsWritten(edgeUrl, options, fetch, discover).Success? ==>
      Initialize(edgeUrl, options, fetch, discover) == InitializeAsWritten(edgeUrl, options, fetch, discover)
  {
  }

  /** `close`: cancel the listener's source, if a listener was started. */
  function Close(m: Manager): (r: Manager)
    ensures r.configuration == m.configuration
    ensures m.listener.None? ==> r == m
    ensures m.listener.Some? ==> r.listener == Some(L.Close(m.listener.value))
  {
    if m.listener.Some? then m.(listener := Some(L.Close(m.listener.value))) else m
  }
}

=== FILE: configuration_update_listener.dfy ===
/** `ConfigurationUpdateListener`: the server-sent-events channel that tells
    the SDK a newer configuration has been published.

    The HTTP and SSE machinery is foreign: discovery is a function from the
    discovery URL to the stream URL it returns (None when the request throws
    an IOException), and decoding a "message" payload is a function from the
    raw event data to the `published` value it carries (None when the JSON
    cannot be read). Each created event source gets the next generation
    number; cancelling one is recorded by that number. */
module ConfigurationUpdateListener {
  import opened Wrappers
  import opened Models

  const MessageType: string := "message"

  /** A live or cancelled `EventSource`, identified by its generation. */
  datatype Source = Source(generation: nat, url: string)

  datatype Listener = Listener(
    edgeUrl: string,
    environmentId: string,
    eventSource: Option<Source>,     // the `eventSource` field
    lastEventId: Option<string>,     // the `lastEventId` field: the resume cursor
    created: nat,                    // event sources created so far
    cancelled: seq<nat>,             // generations passed to `cancel()`, in order
    delivered: seq<Double>)          // `published` values handed to the update handler

  datatype ListenerError =
    | DiscoveryFailed                // "Unable to get SSE URL for new EventSource"
    | MessageDecodeFailed            // "Error handling ... EventSource message"

  /** A transition's outcome: the state after it, and the exception it raised, if any. */
  datatype Step = Step(listener: Listener, error: Option<ListenerError>)

  const TokenPath: string := "/realtimeToken/"
  const EventSourcePath: string := "/eventSource"

  /** `getSseUrl`: the discovery endpoint for the environment, which reads
      back as the edge URL, the token path, the environment id and the
      event-source path, in that order. */
  function DiscoveryUrl(edgeUrl: string, environmentId: string): (r: string)
    ensures |r| == |edgeUrl| + |TokenPath| + |environmentId| + |EventSourcePath|
    ensures r[..|edgeUrl|] == edgeUrl
    ensures r[|edgeUrl|..|edgeUrl| + |TokenPath|] == TokenPath
    ensures r[|edgeUrl| + |TokenPath|..|r| - |EventSourcePath|] == environmentId
    ensures r[|r| - |EventSourcePath|..] == EventSourcePath
  {
    edgeUrl + TokenPath + environmentId + EventSourcePath
  }

  /** Under one edge URL, distinct environments use distinct discovery endpoints. */
  lemma DiscoveryUrlIsInjective(edgeUrl: string, a: string, b: string)
    requires DiscoveryUrl(edgeUrl, a) == DiscoveryUrl(edgeUrl, b)
    ensures a == b
  {
    var u := DiscoveryUrl(edgeUrl, a);
    assert a == u[|edgeUrl| + |TokenPath|..|u| - |EventSourcePath|] == b;
  }

  /** The stream URL: the discovered URL, plus the resume cursor when one is
      recorded. The cursor is sent exactly when one is recorded, after the
      discovered URL. */
  function StreamUrl(discovered: string, lastEventId: Option<string>): (r: string)
    ensures r == discovered <==> lastEventId.None?
    ensures |r| >= |discovered| && r[..|discovered|] == discovered
    ensures lastEventId.Some? ==> r[|discovered|..] == "&lastEvent=" + lastEventId.value
  {
    if lastEventId.Some? then discovered + ("&lastEvent=" + lastEventId.value) else discovered
  }

  /** The stream URL determines which cursor it carries. */
  lemma StreamUrlIsInjective(discovered: string, a: Option<string>, b: Option<string>)
    requires StreamUrl(discovered, a) == StreamUrl(discovered, b)
    ensures a == b
  {
    if a.Some? && b.Some? {
      var suffix := "&lastEvent=";
      var tail := StreamUrl(discovered, a)[|discovered|..];
      assert tail == suffix + a.value == suffix + b.value;
      assert a.value == tail[|suffix|..] == b.value;
    }
  }

  /** A reconnection as `createNewEventSource` makes it: cancel the current
      source if there is one, discover the stream URL, and open a new source
      on it. A discovery
      failure raises after the cancellation, leaving the cancelled source in
      the field. The cursor and the delivered values are kept. */
  predicate Reconnected(l: Listener, discover: string -> Option<string>, r: Step) {
    && r.listener.edgeUrl == l.edgeUrl && r.listener.environmentId == l.environmentId
    && r.listener.lastEventId == l.lastEventId && r.listener.delivered == l.delivered
    && r.listener.cancelled == l.cancelled + (if l.eventSource.Some? then [l.eventSource.value.generation] else [])
    && (r.error.Some? <==> discover(DiscoveryUrl(l.edgeUrl, l.environmentId)).None?)
    && (r.error.Some? ==> r.error == Some(DiscoveryFailed) && r.listener.eventSource == l.eventSource && r.listener.created == l.created)
    && (r.error.None? ==>
          && r.listener.created == l.created + 1
          && r.listener.eventSource == Some(Source(l.created, StreamUrl(discover(DiscoveryUrl(l.edgeUrl, l.environmentId)).value, l.lastEventId))))
  }

  /** `createNewEventSource`. */
  function CreateNewEventSource(l: Listener, discover: string -> Option<string>): (r: Step)
    ensures Reconnected(l, discover, r)
  {
    var l1 := if l.eventSource.Some? then l.(cancelled := l.cancelled + [l.eventSource.value.generation]) else l;
    match discover(DiscoveryUrl(l.edgeUrl, l.environmentId))
    case None => Step(l1, Some(DiscoveryFailed))
    case Some(url) =>
      Step(l1.(eventSource := Some(Source(l.created, StreamUrl(url, l.lastEventId))), created := l.created + 1), None)
  }

  /** The constructor: no cursor yet, then a first event source. */
  function Create(edgeUrl: string, environmentId: string, discover: string -> Option<string>): (r: Result<Listener, ListenerError>)
    ensures r.Failure? <==> discover(DiscoveryUrl(edgeUrl, environmentId)).None?
    ensures r.Success? ==>
      && r.value.eventSource == Some(Source(0, discover(DiscoveryUrl(edgeUrl, environmentId)).value))
      && r.value.lastEventId.None? && r.value.delivered == [] && r.value.cancelled == []
  {
    var s := CreateNewEventSource(Listener(edgeUrl, environmentId, None, None, 0, [], []), discover);
    if s.error.Some? then Failure(s.error.value) else Success(s.listener)
  }

  /** `onEvent`: every event overwrites the cursor with its id (even a null
      one); only "message" events are decoded and reach the handler. */
  function OnEvent(l: Listener, id: Option<string>, eventType: Option<string>, data: string,
                   decode: string -> Option<Double>): (r: Step)
    ensures r.listener.lastEventId == id
    ensures r.listener == l.(lastEventId := id, delivered := r.listener.delivered)
    ensures eventType != Some(MessageType) ==> r.listener.delivered == l.delivered && r.error.None?
    ensures eventType == Some(MessageType) ==>
      if decode(data).Some? then r.listener.delivered == l.delivered + [decode(data).value] && r.error.None?
      else r.listener.delivered == l.delivered && r.error == Some(MessageDecodeFailed)
  {
    var l1 := l.(lastEventId := id);
    if eventType == Some(MessageType) then
      match decode(data)
      case None => Step(l1, Some(MessageDecodeFailed))
      case Some(published) => Step(l1.(delivered := l1.delivered + [published]), None)
    else
      Step(l1, None)
  }

  /** `onClosed`: reconnect. */
  function OnClosed(l: Listener, discover: string -> Option<string>): (r: Step)
    ensures Reconnected(l, discover, r)
  {
    CreateNewEventSource(l, discover)
  }

  /** `onFailure`: reconnect, exactly as on close. */
  function OnFailure(l: Listener, discover: string -> Option<string>): (r: Step)
    ensures Reconnected(l, discover, r)
  {
    CreateNewEventSource(l, discover)
  }

  /** `onOpen`: logging only. */
  function OnOpen(l: Listener): Listener {
    l
  }

  /** `close`: cancel the current source if there is one. */
  function Close(l: Listener): (r: Listener)
    ensures r == l.(cancelled := r.cancelled)
    ensures l.eventSource.None? ==> r == l
    ensures l.eventSource.Some? ==> r.cancelled == l.cancelled + [l.eventSource.value.generation]
  {
    if l.eventSource.Some? then l.(cancelled := l.cancelled + [l.eventSource.value.generation]) else l
  }

  // ---------------------------------------------------------------- invariants

  /** Every source ever created, except the one in the field, has been
      cancelled; so at most one source is live. */
  predicate AtMostOneLive(l: Listener) {
    && (l.eventSource.Some? ==> l.eventSource.value.generation < l.created)
    && forall g: nat :: g < l.created && (l.eventSource.None? || g != l.eventSource.value.generation) ==> g in l.cancelled
  }

  /** The generations not yet cancelled. */
  function Live(l: Listener): set<nat> {
    set g: nat | g < l.created && g !in l.cancelled
  }

  lemma AtMostOneLiveMeansOne(l: Listener)
    requires AtMostOneLive(l)
    ensures l.eventSource.None? ==> Live(l) == {}
    ensures l.eventSource.Some? ==> Live(l) <= {l.eventSource.value.generation}
  {
  }

  /** Each transition keeps at most one source live. */
  lemma TransitionsKeepOneLive(l: Listener, discover: string -> Option<string>, id: Option<string>,
                               eventType: Option<string>, data: string, decode: string -> Option<Double>)
    requires AtMostOneLive(l)
    ensures AtMostOneLive(OnClosed(l, discover).listener)
    ensures AtMostOneLive(OnFailure(l, discover).listener)
    ensures AtMostOneLive(OnEvent(l, id, eventType, data, decode).listener)
    ensures AtMostOneLive(OnOpen(l))
    ensures AtMostOneLive(Close(l))
  {
  }

  lemma CreateHasOneLive(edgeUrl: string, environmentId: string, discover: string -> Option<string>)
    ensures Create(edgeUrl, environmentId, discover).Success? ==> AtMostOneLive(Create(edgeUrl, environmentId, discover).value)
  {
  }

  /** Resume law: after an event with id `e`, the next reconnection (close or
      failure) asks for the stream from `e`; with no event ever received it
      sends no cursor. */
  lemma ReconnectResumesFromLastEvent(l: Listener, e: string, eventType: Option<string>, data: string,
                                      decode: string -> Option<Double>, discover: string -> Option<string>)
    requires discover(DiscoveryUrl(l.edgeUrl, l.environmentId)).Some?
    ensures var url := discover(DiscoveryUrl(l.edgeUrl, l.environmentId)).value;
      var after := OnEvent(l, Some(e), eventType, data, decode).listener;
      && OnClosed(after, discover).listener.eventSource.value.url == url + "&lastEvent=" + e
      && OnFailure(after, discover).listener.eventSource.value.url == url + "&lastEvent=" + e
  {
  }

  // ---------------------------------------------------------------- sessions

  /** A callback the event source makes. */
  datatype Signal =
    | Opened
    | Event(id: Option<string>, eventType: Option<string>, data: string)
    | Closed
    | Failed

  /** The listener's response to one callback. An exception a callback
      raises ends that callback only; the source keeps calling. */
  function Handle(l: Listener, signal: Signal, discover: string -> Option<string>, decode: string -> Option<Double>): Listener {
    match signal
    case Opened => OnOpen(l)
    case Event(id, eventType, data) => OnEvent(l, id, eventType, data, decode).listener
    case Closed => OnClosed(l, discover).listener
    case Failed => OnFailure(l, discover).listener
  }

  function Replay(l: Listener, signals: seq<Signal>, discover: string -> Option<string>,
                  decode: string -> Option<Double>): Listener
    decreases |signals|
  {
    if |signals| == 0 then l else Replay(Handle(l, signals[0], discover, decode), signals[1..], discover, decode)
  }

  /** Over any run of callbacks at most one source stays live, and the
      cursor is the id of the last event received (null ids included), or
      the starting cursor when no event arrived. */
  lemma {:induction false} ReplayKeepsOneLiveAndCursor(l: Listener, signals: seq<Signal>,
                                                      discover: string -> Option<string>, decode: string -> Option<Double>)
    requires AtMostOneLive(l)
    ensures AtMostOneLive(Replay(l, signals, discover, decode))
    ensures (forall i :: 0 <= i < |signals| ==> !signals[i].Event?) ==>
      Replay(l, signals, discover, decode).lastEventId == l.lastEventId
    ensures forall i :: 0 <= i < |signals| && signals[i].Event? && (forall j :: i < j < |signals| ==> !signals[j].Event?) ==>
      Replay(l, signals, discover, decode).lastEventId == signals[i].id
    decreases |signals|
  {
    if |signals| > 0 {
      var l1 := Handle(l, signals[0], discover, decode);
      var rest := signals[1..];
      TransitionsKeepOneLive(l, discover, None, None, "", decode);
      if signals[0].Event? {
        TransitionsKeepOneLive(l, discover, signals[0].id, signals[0].eventType, signals[0].data, decode);
      }
      ReplayKeepsOneLiveAndCursor(l1, rest, discover, decode);
      assert forall i :: 0 < i < |signals| ==> signals[i] == rest[i - 1];
      forall i | 0 <= i < |signals| && signals[i].Event? && (forall j :: i < j < |signals| ==> !signals[j].Event?)
        ensures Replay(l, signals, discover, decode).lastEventId == signals[i].id
      {
        if i > 0 {
          assert rest[i - 1].Event?;
          assert forall j :: i - 1 < j < |rest| ==> !rest[j].Event?;
        } else {
          assert forall j :: 0 <= j < |rest| ==> !rest[j].Event?;
        }
      }
    }
  }

  /** `onOpen` only logs: an open callback anywhere in a run leaves the
      outcome of the run as if it had not happened. */
  lemma {:induction false} OpenedIsInvisible(l: Listener, before: seq<Signal>, after: seq<Signal>,
                                             discover: string -> Option<string>, decode: string -> Option<Double>)
    ensures Replay(l, before + [Opened] + after, discover, decode) == Replay(l, before + after, discover, decode)
    decreases |before|
  {
    if |before| == 0 {
      assert before + [Opened] + after == [Opened] + after;
      assert ([Opened] + after)[1..] == after;
      assert before + after == after;
    } else {
      var l1 := Handle(l, before[0], discover, decode);
      assert (before + [Opened] + after)[1..] == before[1..] + [Opened] + after;
      assert (before + after)[1..] == before[1..] + after;
      OpenedIsInvisible(l1, before[1..], after, discover, decode);
    }
  }
}

=== FILE: guest_memory.dfy ===
/** The host's view of the guest module's linear memory: a little-endian
    `java.nio.ByteBuffer` over a flat byte array, indexed by Java `int`s.
    Reads and writes outside the buffer raise IndexOutOfBoundsException,
    modelled as `Fault`. */
module GuestMemory {
  import opened Wrappers

  const MinInt: int := -0x8000_0000
  const MaxInt: int := 0x7fff_ffff
  const TwoTo32: int := 0x1_0000_0000

  /** One byte of memory, as its unsigned 8-bit pattern. */
  newtype byte = x: int | 0 <= x < 0x100

  /** A Java `int`. */
  type i32 = x: int | MinInt <= x <= MaxInt

  /** A Java `byte[]` or a ByteBuffer: its length or capacity is a Java `int`. */
  type Bytes = s: seq<byte> | |s| <= MaxInt

  /** The guest's linear memory as the host's ByteBuffer sees it. */
  type Memory = Bytes

  datatype Fault =
    | IndexOutOfBounds(index: int)      // ByteBuffer get/put outside the buffer
    | NegativeArraySize(size: int)      // `new byte[length]` with length < 0

  /** Java `int` addition, which wraps around modulo 2^32. */
  function Add(a: i32, b: i32): (r: i32)
    ensures MinInt <= a + b <= MaxInt ==> r == a + b
    ensures a + b > MaxInt ==> r == a + b - TwoTo32
    ensures a + b < MinInt ==> r == a + b + TwoTo32
    ensures (r - (a + b)) % TwoTo32 == 0
  {
    if a + b > MaxInt then a + b - TwoTo32
    else if a + b < MinInt then a + b + TwoTo32
    else a + b
  }

  /** The wrapped sum is the only Java `int` congruent to the true sum modulo 2^32. */
  lemma AddIsTheOnlyWrappedSum(a: i32, b: i32, x: i32)
    requires (x - (a + b)) % TwoTo32 == 0
    ensures x == Add(a, b)
  {
    var d := x - Add(a, b);
    assert d % TwoTo32 == 0 by {
      assert d == (x - (a + b)) - (Add(a, b) - (a + b));
    }
    assert -TwoTo32 < d < TwoTo32;
  }

  /** The 32-bit pattern of a Java `int` read as an unsigned number. */
  function Unsigned(v: i32): (u: nat)
    ensures u < TwoTo32
    ensures v >= 0 ==> u == v
  {
    if v < 0 then v + TwoTo32 else v
  }

  /** `putInt` in LITTLE_ENDIAN order: the two's-complement bytes, least significant first. */
  function EncodeInt(v: i32): (r: seq<byte>)
    ensures |r| == 4
  {
    var u := Unsigned(v);
    var q1 := u / 0x100;
    var q2 := q1 / 0x100;
    var q3 := q2 / 0x100;
    [(u % 0x100) as byte, (q1 % 0x100) as byte, (q2 % 0x100) as byte, q3 as byte]
  }

  /** `getInt` in LITTLE_ENDIAN order. */
  function DecodeInt(b: seq<byte>): i32
    requires |b| == 4
  {
    var u := b[0] as int + 0x100 * (b[1] as int + 0x100 * (b[2] as int + 0x100 * (b[3] as int)));
    if u <= MaxInt then u else u - TwoTo32
  }

  lemma DecodeEncode(v: i32)
    ensures DecodeInt(EncodeInt(v)) == v
  {
    var u := Unsigned(v);
    var q1 := u / 0x100;
    var q2 := q1 / 0x100;
    var q3 := q2 / 0x100;
    SplitByte(u);
    SplitByte(q1);
    SplitByte(q2);
    var b := EncodeInt(v);
    assert b[0] as int + 0x100 * (b[1] as int + 0x100 * (b[2] as int + 0x100 * (b[3] as int))) == u;
  }

  lemma EncodeDecode(b: seq<byte>)
    requires |b| == 4
    ensures EncodeInt(DecodeInt(b)) == b
  {
    var q3 := b[3] as int;
    var q2 := b[2] as int + 0x100 * q3;
    var q1 := b[1] as int + 0x100 * q2;
    var u := b[0] as int + 0x100 * q1;
    assert Unsigned(DecodeInt(b)) == u;
    DivModByte(b[0] as int, q1);
    DivModByte(b[1] as int, q2);
    DivModByte(b[2] as int, q3);
    var r := EncodeInt(DecodeInt(b));
    assert r[0] == b[0] && r[1] == b[1] && r[2] == b[2] && r[3] == b[3];
  }

  lemma SplitByte(x: nat)
    ensures x == x % 0x100 + 0x100 * (x / 0x100)
    ensures 0 <= x % 0x100 < 0x100
  {
  }

  lemma DivModByte(lo: int, hi: nat)
    requires 0 <= lo < 0x100
    ensures (lo + 0x100 * hi) % 0x100 == lo
    ensures (lo + 0x100 * hi) / 0x100 == hi
  {
  }

  predicate IntFits(m: Memory, index: int) {
    0 <= index && index + 4 <= |m|
  }

  /** `ByteBuffer.getInt(index)`. */
  function GetInt(m: Memory, index: i32): (r: Result<i32, Fault>)
    ensures r.Success? <==> IntFits(m, index)
    ensures r.Failure? ==> r.error == IndexOutOfBounds(index)
    ensures r.Success? ==> EncodeInt(r.value) == m[index..index + 4]
  {
    if IntFits(m, index) then
      EncodeDecode(m[index..index + 4]);
      Success(DecodeInt(m[index..index + 4]))
    else
      Failure(IndexOutOfBounds(index))
  }

  /** `ByteBuffer.putInt(index, v)`: checks the bounds before writing anything. */
  function PutInt(m: Memory, index: i32, v: i32): (r: Result<Memory, Fault>)
    ensures r.Success? <==> IntFits(m, index)
    ensures r.Failure? ==> r.error == IndexOutOfBounds(index)
    ensures r.Success? ==> |r.value| == |m| && r.value[index..index + 4] == EncodeInt(v)
    ensures r.Success? ==> forall j :: 0 <= j < |m| && !(index <= j < index + 4) ==> r.value[j] == m[j]
  {
    if IntFits(m, index) then
      Success(m[..index] + EncodeInt(v) + m[index + 4..])
    else
      Failure(IndexOutOfBounds(index))
  }

  /** Reading back a written word yields the value written. */
  lemma GetAfterPutInt(m: Memory, index: i32, v: i32)
    requires IntFits(m, index)
    ensures GetInt(PutInt(m, index, v).value, index) == Success(v)
  {
    var m' := PutInt(m, index, v).value;
    DecodeEncode(v);
    assert m'[index..index + 4] == EncodeInt(v);
  }
}

=== FILE: models.dfy ===
/** The SDK's public data holders: flags, users and client options. */
module Models {
  import opened Wrappers

  /** A Java `double`, kept as its 64-bit pattern: the model never does
      floating-point arithmetic on it. */
  datatype Double = Double(bits: bv64)

  datatype FlagType = BOOLEAN | NUMBER | STRING

  /** The value a flag carries; Java's generic `T value`. */
  datatype FlagValue =
    | BooleanValue(boolean: bool)
    | NumberValue(number: Double)
    | StringValue(str: string)

  /** `AppFlagsFlag<T>`: the key, the declared type and the value. */
  datatype AppFlagsFlag = AppFlagsFlag(key: string, flagType: FlagType, value: FlagValue)

  /** The flag's value has the kind its declared type names. */
  predicate WellTyped(f: AppFlagsFlag) {
    match f.flagType
    case BOOLEAN => f.value.BooleanValue?
    case NUMBER => f.value.NumberValue?
    case STRING => f.value.StringValue?
  }

  /** `AppFlagsUser`: only a key, which the builder defaults to "". */
  datatype AppFlagsUser = AppFlagsUser(key: string)

  /** `AppFlagsUser.SYSTEM`, built with every default. */
  const SystemUser: AppFlagsUser := AppFlagsUser("")

  /** `ConfigurationOptions`: the optional polling period in milliseconds. */
  datatype ConfigurationOptions = ConfigurationOptions(pollingPeriodMs: Option<int>)

  /** `AppFlagsClientOptions`: both fields may be null. */
  datatype ClientOptions = ClientOptions(edgeUrlOverride: Option<string>, configurationOptions: Option<ConfigurationOptions>)
}

=== FILE: protobuf_converter.dfy ===
/** `ProtobufConverter`: between the SDK's models and the protobuf messages. */
module ProtobufConverter {
  import opened Wrappers
  import M = Models
  import P = Protos

  datatype ConversionError = UnexpectedFlagValueType(valueType: P.FlagValueType)

  /** `toProtoUser`: a `User` message whose only field set is the key. */
  function ToProtoUser(user: M.AppFlagsUser): (r: P.User)
    ensures r.key == user.key
    ensures FromProtoUser(r) == user
  {
    P.User(user.key)
  }

  /** The SDK user a `User` message describes; the inverse of `ToProtoUser`. */
  function FromProtoUser(u: P.User): M.AppFlagsUser {
    M.AppFlagsUser(u.key)
  }

  /** `fromFlagValueType`: BOOLEAN, DOUBLE and STRING map to BOOLEAN, NUMBER
      and STRING; anything else raises. */
  function FromFlagValueType(t: P.FlagValueType): (r: Result<M.FlagType, ConversionError>)
    ensures r.Failure? <==> t == P.UNRECOGNIZED
    ensures r.Failure? ==> r.error == UnexpectedFlagValueType(t)
    ensures r.Success? ==> ToFlagValueType(r.value) == t
  {
    match t
    case BOOLEAN => Success(M.BOOLEAN)
    case DOUBLE => Success(M.NUMBER)
    case STRING => Success(M.STRING)
    case UNRECOGNIZED => Failure(UnexpectedFlagValueType(t))
  }

  /** The wire value type of each flag type (the reverse direction). */
  function ToFlagValueType(t: M.FlagType): P.FlagValueType {
    match t
    case BOOLEAN => P.BOOLEAN
    case NUMBER => P.DOUBLE
    case STRING => P.STRING
  }

  /** The two mappings are inverse: a value type converts to a flag type
      exactly when that flag type maps back to it. */
  lemma FlagTypeMappingIsBijective(vt: P.FlagValueType, ft: M.FlagType)
    ensures FromFlagValueType(vt) == Success(ft) <==> ToFlagValueType(ft) == vt
  {
  }

  /** The value field matching the type, as `fromComputedFlag` picks it. */
  predicate CarriesField(f: P.ComputedFlag, v: M.FlagValue) {
    match f.valueType
    case BOOLEAN => v == M.BooleanValue(f.value.booleanValue)
    case DOUBLE => v == M.NumberValue(f.value.doubleValue)
    case STRING => v == M.StringValue(f.value.stringValue)
    case UNRECOGNIZED => false
  }

  /** `fromComputedFlag`: same key, the converted type, and the value field
      matching it; an unrecognised type raises. */
  function FromComputedFlag(f: P.ComputedFlag): (r: Result<M.AppFlagsFlag, ConversionError>)
    ensures r.Failure? <==> f.valueType == P.UNRECOGNIZED
    ensures r.Failure? ==> r.error == UnexpectedFlagValueType(f.valueType)
    ensures r.Success? ==> r.value.key == f.key
    ensures r.Success? ==> FromFlagValueType(f.valueType) == Success(r.value.flagType)
    ensures r.Success? ==> CarriesField(f, r.value.value) && M.WellTyped(r.value)
  {
    match f.valueType
    case BOOLEAN => Success(M.AppFlagsFlag(f.key, FromFlagValueType(f.valueType).value, M.BooleanValue(f.value.booleanValue)))
    case DOUBLE => Success(M.AppFlagsFlag(f.key, FromFlagValueType(f.valueType).value, M.NumberValue(f.value.doubleValue)))
    case STRING => Success(M.AppFlagsFlag(f.key, FromFlagValueType(f.valueType).value, M.StringValue(f.value.stringValue)))
    case UNRECOGNIZED => Failure(UnexpectedFlagValueType(f.valueType))
  }

  /** A computed flag carrying `flag`: its type, and its value in the field
      that type reads (the other fields left at their defaults). */
  function ToComputedFlag(flag: M.AppFlagsFlag): (r: P.ComputedFlag)
    requires M.WellTyped(flag)
  {
    var empty := P.Value(false, M.Double(0), "");
    match flag.value
    case BooleanValue(b) => P.ComputedFlag(flag.key, P.BOOLEAN, empty.(booleanValue := b))
    case NumberValue(d) => P.ComputedFlag(flag.key, P.DOUBLE, empty.(doubleValue := d))
    case StringValue(s) => P.ComputedFlag(flag.key, P.STRING, empty.(stringValue := s))
  }

  /** Round trip: every well-typed flag is recovered from a computed flag carrying it. */
  lemma FromComputedFlagInvertsToComputedFlag(flag: M.AppFlagsFlag)
    requires M.WellTyped(flag)
    ensures FromComputedFlag(ToComputedFlag(flag)) == Success(flag)
  {
  }

  /** Conversion depends only on the key, the type and the field that type reads. */
  lemma FromComputedFlagIgnoresOtherFields(f: P.ComputedFlag, g: P.ComputedFlag)
    requires f.key == g.key && f.valueType == g.valueType
    requires f.valueType == P.BOOLEAN ==> f.value.booleanValue == g.value.booleanValue
    requires f.valueType == P.DOUBLE ==> f.value.doubleValue == g.value.doubleValue
    requires f.valueType == P.STRING ==> f.value.stringValue == g.value.stringValue
    ensures FromComputedFlag(f) == FromComputedFlag(g)
  {
  }
}

=== FILE: protos.dfy ===
/** The protobuf messages the SDK exchanges with the bucketing module, as
    far as the SDK reads or sets them. */
module Protos {
  import opened Models

  /** The generated `FlagValueType` enum; `UNRECOGNIZED` is what the
      generated code yields for a wire number it does not know. */
  datatype FlagValueType = BOOLEAN | DOUBLE | STRING | UNRECOGNIZED

  /** The `value` sub-message: a getter for each kind. */
  datatype Value = Value(booleanValue: bool, doubleValue: Double, stringValue: string)

  /** One entry of `BucketingResult.flags`. */
  datatype ComputedFlag = ComputedFlag(key: string, valueType: FlagValueType, value: Value)

  /** The `User` message. */
  datatype User = User(key: string)
}

=== FILE: timestamps.dfy ===
/** The protobuf `Timestamp` message and the ordering used by the protobuf
    utility `Timestamps.compare`: seconds first, then nanos, after checking
    that both operands lie in the range the format allows. */
module Timestamps {
  import opened Wrappers

  /** 0001-01-01T00:00:00Z and 9999-12-31T23:59:59Z, in seconds since the epoch. */
  const MinSeconds: int := -62135596800
  const MaxSeconds: int := 253402300799
  const MaxNanos: int := 999999999

  datatype Timestamp = Timestamp(seconds: int, nanos: int)

  predicate IsValid(t: Timestamp) {
    MinSeconds <= t.seconds <= MaxSeconds && 0 <= t.nanos <= MaxNanos
  }

  /** `a` is strictly earlier than `b` in the lexicographic (seconds, nanos) order. */
  predicate Before(a: Timestamp, b: Timestamp) {
    a.seconds < b.seconds || (a.seconds == b.seconds && a.nanos < b.nanos)
  }

  /** `Timestamps.compare`: fails (an IllegalArgumentException) when either
      operand is out of range, otherwise the sign of a - b. */
  function Compare(a: Timestamp, b: Timestamp): (r: Option<int>)
    ensures r.Some? <==> IsValid(a) && IsValid(b)
    ensures r.Some? ==> (r.value > 0 <==> Before(b, a))
    ensures r.Some? ==> (r.value == 0 <==> a == b)
    ensures r.Some? ==> (r.value < 0 <==> Before(a, b))
  {
    if !IsValid(a) || !IsValid(b) then None
    else if a.seconds != b.seconds then Some(if a.seconds < b.seconds then -1 else 1)
    else if a.nanos != b.nanos then Some(if a.nanos < b.nanos then -1 else 1)
    else Some(0)
  }

  /** The later of two timestamps (the first one when they are equal). */
  function Latest(a: Timestamp, b: Timestamp): Timestamp {
    if Before(a, b) then b else a
  }

  /** `Before` is a strict total order: irreflexive, transitive and total. */
  lemma BeforeIsStrictTotalOrder(a: Timestamp, b: Timestamp, c: Timestamp)
    ensures !Before(a, a)
    ensures Before(a, b) && Before(b, c) ==> Before(a, c)
    ensures a == b || Before(a, b) || Before(b, a)
    ensures !(Before(a, b) && Before(b, a))
  {
  }

  /** `Latest` is an upper bound that is one of its arguments, whatever the order. */
  lemma LatestIsMaximum(a: Timestamp, b: Timestamp)
    ensures !Before(Latest(a, b), a) && !Before(Latest(a, b), b)
    ensures Latest(a, b) == a || Latest(a, b) == b
    ensures Latest(a, b) == Latest(b, a)
  {
  }
}

=== FILE: wrappers.dfy ===
/** Failure-compatible Option and Result datatypes shared by every module:
    `None` stands for a Java `null`, `Failure` for a thrown exception. */
module Wrappers {

  datatype Option<+T> = None | Some(value: T) {

    /** The value, or `default` when absent. */
    function GetOr(default: T): T {
      match this
      case Some(v) => v
      case None => default
    }
  }

  datatype Result<+T, +E> = Success(value: T) | Failure(error: E) {

    predicate IsFailure() {
      Failure?
    }

    function PropagateFailure<U>(): Result<U, E>
      requires Failure?
    {
      Failure(error)
    }

    function Extract(): T
      requires Success?
    {
      value
    }

    /** The value as an Option, dropping the error. */
    function ToOption(): Option<T> {
      match this
      case Success(v) => Some(v)
      case Failure(_) => None
    }

    /** Rewraps the error with `f`, keeping a success unchanged. */
    function MapFailure<E2>(f: E -> E2): Result<T, E2> {
      match this
      case Success(v) => Success(v)
      case Failure(e) => Failure(f(e))
    }
  }
}
